=== FILE: README.md ===
# Arithmetic of the integers: a verified Dafny model of `arithmetique.py`

`Python/arithmetique.py` is a teaching module of elementary number theory. It
contains Euclidean division, greatest common divisors and Bezout coefficients,
modular inverses, and linear Diophantine equations. It also has the sieve of
Eratosthenes, factorization by trial division, smallest divisors and primality
tests, fast modular exponentiation, Fermat witnesses and Carmichael numbers.

This project models every function of that file as a Dafny method with the
same loops, branches and constants. It then proves what each one computes,
against definitions that do not depend on the algorithm:

- `IsGcd` is the divisibility-order greatest common divisor. `Gcd` is Euclid's
  recursion, and it is proved to be the same thing.
- `IsPrime` is "no divisor strictly between 1 and n".
- `IsFactorization` says the list holds ascending prime powers whose product
  is n.
- `KorseltCriterion` is stated on n's divisors, not on a factor list: n > 1,
  square-free, with two distinct prime divisors, and p - 1 divides n - 1 for
  every prime divisor p.
- `IsCarmichael` means "composite without a Fermat witness".

Module layout:

| file | module | contents |
|---|---|---|
| divisibility.dfy | Divisibility | `Divides`, Python's floor `//` and `%` (`FloorDiv`, `FloorMod`) and their uniqueness |
| gcd.dfy | GcdTheory | `IsGcd`, `Gcd`, Bezout's identity, Gauss's lemma |
| primes.dfy | Primes | `IsPrime`, smallest divisors, Euclid's lemma, trial division, strictly ascending lists |
| powers.dfy | Powers | `Pow` and its behaviour modulo n |
| factorization.dfy | Factorization | factor lists, uniqueness of factorization, Korselt's criterion |
| fermat.dfy | Fermat | the binomial theorem, Fermat's little theorem, Korselt implies Carmichael |
| arithmetique.dfy | Arithmetique | one method per Python function |
| prime_tables.dfy | PrimeTables | certified tables of small primes, checked by trial division |
| doctests.dfy | Doctests | the docstring examples of the source, proved on the model's definitions |

Modelling decisions:

- Python's integers are unbounded, like Dafny's `int`, so nothing wraps around.
- Every `//`, `%` and `divmod` of the source is written with `FloorDiv` and
  `FloorMod`. These follow Python's floor convention, where the remainder has
  the sign of the divisor. Dafny's own `/` and `%` are Euclidean instead. The
  difference shows in `euclide_etendu`, whose remainders can be negative, and
  in `inverse_mod`, whose result has the sign of n.
- `pgcd` and `euclide_etendu` state the condition (a, b) != (0, 0), but the
  code returns 0 and (0, 1, 0) for (0, 0). Those are correct answers, and the
  model covers that input.
- `eratosthene` and `est_premier1` state n >= 2 as a condition of use. For
  smaller n the code returns [] and False, which is also correct, so the model
  takes every integer.
- `mon_divmod` keeps its condition a >= 0, b > 0. `factorise` keeps n >= 1,
  since it does not terminate for n <= 0. The smallest-divisor functions and
  `est_premier2` keep n >= 2, and `est_carmichael` keeps n > 0.
- `resoud_equation` requires (a, b) != (0, 0). For (0, 0) the code divides
  c by pgcd(0, 0) = 0 (line 147), which raises ZeroDivisionError.
- `expo_mod_rapide` keeps its stated condition b >= 0, n > 0, and the model
  does not cover the other inputs:
  - for b < 0 the loop never ends, because -1 // 2 == -1;
  - for b = 0 the loop (lines 310-312) does not run, and the code returns 1
    whatever n is;
  - for n = 0 and b > 0 the code takes a remainder modulo 0 and raises
    ZeroDivisionError;
  - for n < 0 and b > 0 the code runs normally and returns a value in (n, 0]
    that is congruent to a^b.
- `est_temoin_non_primalite` requires n > 1, the condition its docstring states.
- `est_premier2` is modelled for n >= 2 only. For n <= 1, `plus_petit_diviseur`
  returns n itself (line 275), so `est_premier2` returns True although such n
  are not prime.
- The two `assert` statements of `inverse_mod` become the `Failure` cases of
  `InverseResult`.
- The result of `resoud_equation` becomes `Solutions`. Python's empty tuple is
  `NoSolution`, and its pair of pairs is `Family(x0, y0, alpha, beta)`.
- The random draws of `est_premier_probable_fermat` are a parameter.
- Two comments in the source are off, and the model follows the code:
  - the closing comment of `mon_divmod` (line 35) writes `r < a` where the
    loop establishes `r < b`;
  - the invariant comment of `euclide_etendu` (line 88) writes `b1` for `r1`.
- `expo_mod_rapide` returns 1 for b = 0 without reducing it modulo n. So for
  b = 0 and n = 1 it returns 1, not 0. The model keeps this: its result equals
  a^b mod n for b > 0, and is always congruent to a^b.

## Model

| member | source | states |
|---|---|---|
| Arithmetique.MonDivmod | Python/arithmetique.py:12-36 | a = b*q + r with 0 <= r < b, and (q, r) is Python's divmod(a, b) |
| Divisibility.FloorDivModUnique | Python/arithmetique.py:14-17 | the pair is unique: any q, r with x = y*q + r and r in the divisor's sign range are the floor quotient and remainder |
| Arithmetique.Pgcd | Python/arithmetique.py:38-66 | the result is a greatest common divisor in the divisibility order (nonnegative, common divisor, multiple of every common divisor) and equals Euclid's Gcd(a, b), for every pair including (0, 0) |
| GcdTheory.GcdCharacterization | Python/arithmetique.py:60-65 | d is the greatest common divisor of a and b exactly when d is Euclid's Gcd(a, b) |
| GcdTheory.GcdSymmetries | Python/arithmetique.py:45-56 | the greatest common divisor ignores the signs and the order of its arguments, and gcd(0, b) = abs(b) |
| Arithmetique.EuclideEtendu | Python/arithmetique.py:68-98 | d is the greatest common divisor of a and b and d = a*u + b*v |
| GcdTheory.Bezout | Python/arithmetique.py:70-74 | every pair has Bezout coefficients: a*u + b*v = gcd(a, b) |
| Arithmetique.InverseMod | Python/arithmetique.py:101-118 | it fails with ZeroModulus exactly when n = 0, and with NotInvertible exactly when gcd(a, n) != 1; otherwise n divides a*x - 1, and x lies in [0, n) for n > 0 and in (n, 0] for n < 0 |
| Arithmetique.InverseNeedsCoprime | Python/arithmetique.py:117 | if some x has a*x = 1 modulo n, then gcd(a, n) = 1, so the assertion rejects only a that have no inverse |
| Arithmetique.InverseUnique | Python/arithmetique.py:103-104 | there is only one inverse of a modulo n > 0 in [0, n) |
| Arithmetique.ResoudEquation | Python/arithmetique.py:121-158 | no solution exactly when gcd(a, b) does not divide c; otherwise alpha*g = -b and beta*g = a, every (x0 + alpha*k, y0 + beta*k) solves a*x + b*y = c, and every solution has that form |
| Arithmetique.FamilyIsSolutionSet | Python/arithmetique.py:151-158 | with a = d*a1, b = d*b1, c = d*c1 and a1*u + b1*v = 1, the family (c1*u - b1*k, c1*v + a1*k) is exactly the solution set |
| Arithmetique.ReducedCoprime | Python/arithmetique.py:152-154 | after dividing a and b by their greatest common divisor, they are coprime |
| Arithmetique.Eratosthene | Python/arithmetique.py:160-188 | x is in the list exactly when 2 <= x <= n and x is prime, and the list is strictly ascending |
| Arithmetique.SieveComplete | Python/arithmetique.py:175-187 | once p*p > n, a number in [p, n] is still unstruck exactly when it is prime |
| Arithmetique.StruckComposite | Python/arithmetique.py:176 | skipping a struck (composite) p loses nothing: its multiples are already struck |
| Arithmetique.StrikeMultiples | Python/arithmetique.py:180-183 | striking 2p, 3p, ... up to n turns the numbers struck by every q < p into those struck by every q <= p |
| Arithmetique.ReadOffPrimes | Python/arithmetique.py:185-187 | once p*p > n, appending the unstruck numbers of [p, n] to the primes below p gives exactly the primes up to n, in ascending order |
| Arithmetique.EstPremier1 | Python/arithmetique.py:190-204 | the result is true exactly when n is prime, for every integer n |
| Arithmetique.Factorise | Python/arithmetique.py:207-237 | the list is the prime factorization of n (primes ascending, exponents >= 1, product n), each exponent is the largest alpha with p^alpha dividing n, no other list is a factorization of n, and the list is empty exactly when n = 1 |
| Arithmetique.DivideOut | Python/arithmetique.py:227-229 | when p divides m, p is prime and m // p keeps n = product * p^alpha * m and the absence of divisors below p |
| Arithmetique.FactorizationFacts | Python/arithmetique.py:210-212 | a factorization of n has maximal exponents, is the only factorization of n, and is empty exactly when n = 1 |
| Factorization.ExponentIsMaximal | Python/arithmetique.py:210-212 | in a factorization, p^alpha divides n and p^(alpha+1) does not |
| Factorization.FactorizationUnique | Python/arithmetique.py:210-212 | two factorizations of the same number are equal |
| Arithmetique.PlusPetitDiviseur1 | Python/arithmetique.py:239-254 | the result is the smallest divisor of n above 1, and it is prime |
| Arithmetique.PlusPetitDiviseur | Python/arithmetique.py:257-275 | the result is the smallest divisor of n above 1, and it is prime |
| Primes.NoSmallDivisorMeansPrime | Python/arithmetique.py:272-275 | if no number in [2, d) divides n and d*d > n, then n is prime |
| Primes.SmallestDivisorIsPrime | Python/arithmetique.py:241-242 | the smallest divisor above 1 is prime |
| Arithmetique.EstPremier2 | Python/arithmetique.py:277-291 | the result is true exactly when n is prime |
| Primes.PrimeIffOwnSmallestDivisor | Python/arithmetique.py:291 | a number >= 2 is prime exactly when it is its own smallest divisor above 1 |
| Arithmetique.ExpoModRapide | Python/arithmetique.py:295-319 | the result is a^b mod n for b > 0 and 1 for b = 0; in all cases it is congruent to a^b modulo n |
| Arithmetique.SquareAndMultiplyStep | Python/arithmetique.py:310-317 | one round of the loop keeps r * s^k unchanged modulo n |
| Powers.PowHalving | Python/arithmetique.py:313-316 | s^k = s^(k mod 2) * (s*s)^(k div 2) |
| Powers.PowMod | Python/arithmetique.py:314-315 | reducing the base modulo n does not change a power modulo n |
| Arithmetique.EstTemoinNonPrimalite | Python/arithmetique.py:323-338 | the result is true exactly when a is coprime to n and a^(n-1) mod n != 1; a true result proves n composite |
| Fermat.WitnessMeansComposite | Python/arithmetique.py:325-328 | a Fermat witness for n exists only when n is composite |
| Fermat.FermatCoprime | Python/arithmetique.py:323-338 | Fermat's little theorem: a^(p-1) = 1 modulo a prime p for every a coprime to p |
| Fermat.FermatLittle | Python/arithmetique.py:323-338 | p divides a^p - a for every prime p and integer a |
| Arithmetique.EstPremierProbableFermat | Python/arithmetique.py:340-350 | the result is true exactly when no draw is a Fermat witness, so a prime is never reported composite |
| Arithmetique.EstCarmichael | Python/arithmetique.py:352-370 | the result is true exactly when n meets Korselt's criterion, and a true result means n is a Carmichael number |
| Factorization.KorseltFromFactorization | Python/arithmetique.py:366-370 | the test on the factor list (more than one prime, every exponent 1, p - 1 dividing n - 1) is Korselt's criterion on n |
| Fermat.KorseltMeansCarmichael | Python/arithmetique.py:354-357 | a positive n whose factor list passes Korselt's test (more than one prime, every exponent 1, p - 1 dividing n - 1) is composite and has no Fermat witness, so it is a Carmichael number |
| Primes.StrictlyAscendingUnique | Python/arithmetique.py:160-188 | two strictly ascending lists with the same elements are equal, so the list the sieve returns is determined by its contract |
| Doctests.DivModExamples | Python/arithmetique.py:24-27 | divmod(10, 3) = (3, 1) and divmod(12, 3) = (4, 0) |
| Doctests.GcdExamples | Python/arithmetique.py:45-56 | gcd(12, 8) = 4, gcd(0, 3) = 3, and gcd(42, 26) = 2 for all four sign combinations |
| Doctests.InverseExamples | Python/arithmetique.py:108-111 | 3 is invertible modulo 7 and modulo 26, 5 and 9 are inverses of 3 there, and they are the only ones in [0, 7) and [0, 26) |
| Doctests.NoSolution465 | Python/arithmetique.py:135-136 | gcd(4, 6) = 2 does not divide 5, so 4x + 6y = 5 has no solution |
| Doctests.Eratosthene40 | Python/arithmetique.py:167-168 | the strictly ascending list of the primes up to 40 is [2, 3, 5, 7, 11, 13, 17, 19, 23, 29, 31, 37] |
| Doctests.Eratosthene100 | Python/arithmetique.py:169-170 | the strictly ascending list of the primes up to 100 has 25 entries |
| Doctests.SmallFactorizations | Python/arithmetique.py:215-218 | the only factorization of 1 is [] and the only factorization of 2 is [(2, 1)] |
| Doctests.SmallestDivisor9929 | Python/arithmetique.py:266-267 | the smallest divisor of 9929 above 1 is 9929 itself |
| Doctests.ExpoMod2Pow10 | Python/arithmetique.py:305-306 | 2^10 mod 100 = 24 |
| Doctests.Factorization504 | Python/arithmetique.py:219-220 | [(2, 3), (3, 2), (7, 1)] is the only factorization of 504 |
| Doctests.Carmichael561 | Python/arithmetique.py:363-364 | 561 meets Korselt's criterion and is a Carmichael number |
| Doctests.Prime9929 | Python/arithmetique.py:199-200 | 9929 is prime |
| Doctests.Composite9927 | Python/arithmetique.py:288-289 | 9927 is not prime |
| Doctests.SmallestDivisor9927 | Python/arithmetique.py:264-265 | the smallest divisor of 9927 above 1 is 3 |
| Doctests.ExpoMod14Pow3141 | Python/arithmetique.py:307-308 | 14^3141 mod 17 = 12 |

## Left out

- The doctest driver at the end of the file (`if __name__ == '__main__'`) is
  I/O, so it is left out.
- The docstring examples on numbers with 12 to 18 digits are not stated:
  `pgcd(47337338776803609, 114875698154581919)`, the third `inverse_mod`
  example and the `euclide_etendu` example. Proving them would mean running
  Euclid's algorithm on those numbers inside the proof, about 80 division
  steps on 18-digit integers. The Fermat witness examples for n = 2^32 + 1
  are left out because they need 2^(2^32) and 3^(2^32) modulo n. All of these
  are still covered by the general contracts.
- The claim that no k in [1, 561) is a Carmichael number is not proved. It
  would need the factorization of every such k.
- The `randint` example of `resoud_equation` is random. The model's contract
  covers every (a, b, c), which includes those draws.
- EstCarmichael: the converse is not proved, namely that every Carmichael
  number meets Korselt's criterion. The docstring promises `est_carmichael` is
  true exactly for Carmichael numbers. The model proves only the direction
  "true implies Carmichael". The other direction needs primitive roots modulo
  primes.
- EstPremierProbableFermat: the random draws come in as a parameter, with
  `nbtentatives` as its length. The file never imports `randrange`, so as
  written the function raises a NameError whenever it draws. The model assumes
  the import. It also assumes `randrange(2, n - 1)`, which has no value for
  n = 3, so at n = 3 the only draw list allowed is the empty one.

=== FILE: arithmetique.dfy ===
/** The module's functions, one method each, in the order of the Python file
    Python/arithmetique.py. Every `//`, `%` and `divmod` of the source is written
    with FloorDiv / FloorMod, the floor-division convention of Python. */
module Arithmetique {
  import opened Divisibility
  import opened GcdTheory
  import opened Primes
  import opened Powers
  import opened Factorization
  import opened Fermat

  // ---------------------------------------------------------------------------
  // Euclidean division and greatest common divisors
  // ---------------------------------------------------------------------------

  /** mon_divmod: the unique (q, r) with a = b*q + r and 0 <= r < b, found by
      subtracting b from a until less than b remains. */
  method MonDivmod(a: int, b: int) returns (q: int, r: int)
    requires a >= 0 && b > 0
    ensures a == b * q + r && 0 <= r < b
    ensures q == FloorDiv(a, b) && r == FloorMod(a, b)
  {
    q, r := 0, a;
    while r >= b
      invariant a == b * q + r && r >= 0
      decreases r
    {
      q := q + 1;
      r := r - b;
    }
    FloorDivModUnique(a, b, q, r);
  }

  /** pgcd: Euclid's algorithm on absolute values. For (0, 0) the source
      returns 0, which is the greatest common divisor in the divisibility order. */
  method Pgcd(a: int, b: int) returns (d: int)
    ensures IsGcd(d, a, b)
    ensures d == Gcd(a, b)
  {
    var a1, b1 := Abs(a), Abs(b);
    forall c
      ensures CommonDivisor(c, a, b) <==> CommonDivisor(c, a1, b1)
    {
      DividesSigns(c, a);
      DividesSigns(c, b);
    }
    while b1 != 0
      invariant a1 >= 0 && b1 >= 0
      invariant forall c :: CommonDivisor(c, a, b) <==> CommonDivisor(c, a1, b1)
      decreases b1
    {
      forall c
        ensures CommonDivisor(c, a1, b1) <==> CommonDivisor(c, b1, FloorMod(a1, b1))
      {
        CommonDivisorsStep(c, a1, b1, FloorDiv(a1, b1));
      }
      a1, b1 := b1, FloorMod(a1, b1);
    }
    d := Abs(a1);
    IsGcdWithZero(a1);
    IsGcdTransfer(d, a, b, a1, 0);
    GcdCharacterization(d, a, b);
  }

  /** One step of the extended algorithm keeps each remainder a combination of a and b. */
  lemma CombinationStep(a: int, b: int, u0: int, v0: int, u1: int, v1: int, q: int)
    ensures a * (u0 - q * u1) + b * (v0 - q * v1) == (a * u0 + b * v0) - q * (a * u1 + b * v1)
  {
    calc {
      a * (u0 - q * u1) + b * (v0 - q * v1);
      a * u0 - a * (q * u1) + b * v0 - b * (q * v1);
      { assert a * (q * u1) == q * (a * u1); assert b * (q * v1) == q * (b * v1); }
      a * u0 + b * v0 - q * (a * u1) - q * (b * v1);
    }
  }

  /** One round of euclide_etendu: with (q, r) = divmod(r0, r1), the new coefficients
      (u0 - q*u1, v0 - q*v1) give r, the pair (r1, r) has the common divisors of
      (a, b), and |r| < |r1|. */
  lemma ExtendedStep(a: int, b: int, r0: int, r1: int, u0: int, u1: int, v0: int, v1: int)
    requires r1 != 0
    requires a * u0 + b * v0 == r0 && a * u1 + b * v1 == r1
    requires forall c :: CommonDivisor(c, a, b) <==> CommonDivisor(c, r0, r1)
    ensures var q, r := FloorDiv(r0, r1), FloorMod(r0, r1);
      && a * (u0 - q * u1) + b * (v0 - q * v1) == r
      && (forall c :: CommonDivisor(c, a, b) <==> CommonDivisor(c, r1, r))
      && Abs(r) < Abs(r1)
  {
    var q, r := FloorDiv(r0, r1), FloorMod(r0, r1);
    assert r == r0 - q * r1;
    forall c
      ensures CommonDivisor(c, r0, r1) <==> CommonDivisor(c, r1, r)
    {
      CommonDivisorsStep(c, r0, r1, q);
    }
    CombinationStep(a, b, u0, v0, u1, v1, q);
  }

  /** When euclide_etendu stops at (r0, 0), |r0| is the greatest common divisor of a and b. */
  lemma ExtendedFinish(a: int, b: int, r0: int)
    requires forall c :: CommonDivisor(c, a, b) <==> CommonDivisor(c, r0, 0)
    ensures IsGcd(Abs(r0), a, b) && Abs(r0) == Gcd(a, b)
  {
    IsGcdWithZero(r0);
    forall c
      ensures CommonDivisor(c, Abs(r0), 0) <==> CommonDivisor(c, a, b)
    {
      DividesSigns(c, r0);
    }
    IsGcdTransfer(Abs(r0), a, b, r0, 0);
    GcdCharacterization(Abs(r0), a, b);
  }

  /** euclide_etendu: the extended Euclidean algorithm. It runs Python's floor
      divmod on remainders that may be negative and normalises the sign at the end. */
  method EuclideEtendu(a: int, b: int) returns (d: int, u: int, v: int)
    ensures IsGcd(d, a, b) && d == Gcd(a, b)
    ensures d == a * u + b * v
  {
    var r0, r1 := a, b;
    var u0, u1 := 1, 0;
    var v0, v1 := 0, 1;
    while r1 != 0
      invariant a * u0 + b * v0 == r0 && a * u1 + b * v1 == r1
      invariant forall c :: CommonDivisor(c, a, b) <==> CommonDivisor(c, r0, r1)
      decreases Abs(r1)
    {
      var q, r := FloorDiv(r0, r1), FloorMod(r0, r1);
      ExtendedStep(a, b, r0, r1, u0, u1, v0, v1);
      r0, r1 := r1, r;
      u0, u1 := u1, u0 - q * u1;
      v0, v1 := v1, v0 - q * v1;
    }
    ExtendedFinish(a, b, r0);
    if r0 < 0 {
      assert a * (-u0) + b * (-v0) == -(a * u0 + b * v0);
      r0, u0, v0 := -r0, -u0, -v0;
    }
    d, u, v := r0, u0, v0;
  }

  // ---------------------------------------------------------------------------
  // Modular inverse
  // ---------------------------------------------------------------------------

  /** The two failed assertions of inverse_mod. */
  datatype InverseError = ZeroModulus | NotInvertible

  /** The outcome of inverse_mod: the inverse, or the assertion that failed. */
  datatype InverseResult = Inverse(value: int) | Failure(error: InverseError)

  /** An inverse of a modulo n exists only when a and n are coprime. */
  lemma InverseNeedsCoprime(a: int, n: int, x: int)
    requires Divides(n, a * x - 1)
    ensures Gcd(a, n) == 1
  {
    var g := Gcd(a, n);
    GcdIsGcd(a, n);
    DividesTransitive(g, n, a * x - 1);
    DividesCombination(g, a, a * x - 1, x, -1);
    assert x * a + (-1) * (a * x - 1) == 1;
    DividesBound(g, 1);
    assert g != 0;
  }

  /** a*x - 1 is a multiple of n when a*u + n*v == 1 and x is u reduced modulo n. */
  lemma ReducedBezoutIsInverse(a: int, n: int, u: int, v: int)
    requires n != 0 && a * u + n * v == 1
    ensures Divides(n, a * FloorMod(u, n) - 1)
  {
    var t := FloorDiv(u, n);
    var x := FloorMod(u, n);
    assert x == u - n * t;
    calc {
      a * x - 1;
      a * (u - n * t) - 1;
      a * u - a * (n * t) - 1;
      { assert a * (n * t) == n * (a * t); }
      a * u - n * (a * t) - 1;
      n * (-v - a * t);
    }
    DividesMultiple(n, -v - a * t);
  }

  /** inverse_mod: the inverse of a modulo n, reduced with Python's `%` (so it
      has the sign of n). A zero modulus and a non-coprime a are the source's two
      assertion failures. */
  method InverseMod(a: int, n: int) returns (res: InverseResult)
    ensures n == 0 <==> res == Failure(ZeroModulus)
    ensures n != 0 && Gcd(a, n) != 1 <==> res == Failure(NotInvertible)
    ensures res.Inverse? ==> Divides(n, a * res.value - 1)
    ensures res.Inverse? && n > 0 ==> 0 <= res.value < n && (a * res.value) % n == 1 % n
    ensures res.Inverse? && n < 0 ==> n < res.value <= 0
  {
    if n == 0 {
      return Failure(ZeroModulus);
    }
    var d, u, v := EuclideEtendu(a, n);
    if d != 1 {
      return Failure(NotInvertible);
    }
    res := Inverse(FloorMod(u, n));
    ReducedBezoutIsInverse(a, n, u, v);
    if n > 0 {
      var k := DividesWitness(n, a * res.value - 1);
      assert a * res.value == 1 + n * k;
      ModAddMultiple(1, n, k);
    }
  }

  /** The inverse in [0, n) is unique, so inverse_mod returns the inverse. */
  lemma InverseUnique(a: int, n: int, x: int, y: int)
    requires n > 0 && 0 <= x < n && 0 <= y < n
    requires Divides(n, a * x - 1) && Divides(n, a * y - 1)
    ensures x == y
  {
    InverseNeedsCoprime(a, n, x);
    DividesCombination(n, a * x - 1, a * y - 1, 1, -1);
    assert 1 * (a * x - 1) + (-1) * (a * y - 1) == a * (x - y);
    Gauss(a, n, x - y);
    if x != y {
      DividesBound(n, x - y);
    }
  }

  // ---------------------------------------------------------------------------
  // Linear Diophantine equations
  // ---------------------------------------------------------------------------

  /** (x, y) solves a*x + b*y = c. */
  predicate Solves(a: int, b: int, c: int, x: int, y: int)
  {
    a * x + b * y == c
  }

  /** The result of resoud_equation: no solution (the empty tuple), or the family
      (x0 + alpha*k, y0 + beta*k) for k ranging over the integers. */
  datatype Solutions = NoSolution | Family(x0: int, y0: int, alpha: int, beta: int)
  {
    /** The member of the family for parameter k. */
    function At(k: int): (int, int)
      requires Family?
    {
      (x0 + alpha * k, y0 + beta * k)
    }
  }

  /** (x, y) is a member of the family. */
  ghost predicate InFamily(sol: Solutions, x: int, y: int)
  {
    sol.Family? && exists k :: sol.At(k) == (x, y)
  }

  /** If g divides x, then d*g divides d*x. */
  lemma DividesScaled(d: int, g: int, x: int)
    requires Divides(g, x)
    ensures Divides(d * g, d * x)
  {
    var s := DividesWitness(g, x);
    MulAssociative(d, g, s);
    DividesMultiple(d * g, s);
  }

  /** d*g divides d only when g is at most 1 (d > 0, g >= 0). */
  lemma ScaledDivisorBound(d: int, g: int)
    requires d > 0 && g >= 0 && Divides(d * g, d)
    ensures g <= 1
  {
    DividesBound(d * g, d);
  }

  /** After dividing a and b by their greatest common divisor they are coprime. */
  lemma ReducedCoprime(a: int, b: int, d: int, a1: int, b1: int)
    requires d == Gcd(a, b) && d > 0 && a == d * a1 && b == d * b1
    ensures Gcd(a1, b1) == 1
  {
    var g := Gcd(a1, b1);
    GcdDivides(a1, b1);
    if g == 0 {
      assert false;
    }
    DividesScaled(d, g, a1);
    DividesScaled(d, g, b1);
    CommonDivisorDividesGcd(d * g, a, b);
    ScaledDivisorBound(d, g);
  }

  /** Every member of the family solves the equation. */
  lemma FamilySolves(a: int, b: int, c: int, d: int, a1: int, b1: int, c1: int, u: int, v: int, k: int)
    requires a == d * a1 && b == d * b1 && c == d * c1 && a1 * u + b1 * v == 1
    ensures Solves(a, b, c, c1 * u + (-b1) * k, c1 * v + a1 * k)
  {
    calc {
      a * (c1 * u + (-b1) * k) + b * (c1 * v + a1 * k);
      (d * a1) * (c1 * u + (-b1) * k) + (d * b1) * (c1 * v + a1 * k);
      d * c1 * (a1 * u + b1 * v) + d * k * (b1 * a1 - a1 * b1);
      d * c1;
    }
  }

  /** Every solution belongs to the family: the parameter is k = dy*u - dx*v. */
  lemma SolutionInFamily(a1: int, b1: int, u: int, v: int, dx: int, dy: int) returns (k: int)
    requires a1 * dx + b1 * dy == 0 && a1 * u + b1 * v == 1
    ensures dx == (-b1) * k && dy == a1 * k
  {
    k := dy * u - dx * v;
    calc {
      a1 * k;
      (a1 * u) * dy - (a1 * dx) * v;
      { assert a1 * dx == -(b1 * dy); }
      (a1 * u) * dy + (b1 * dy) * v;
      dy * (a1 * u + b1 * v);
    }
    calc {
      (-b1) * k;
      -(b1 * dy) * u + (b1 * v) * dx;
      { assert -(b1 * dy) == a1 * dx; }
      (a1 * dx) * u + (b1 * v) * dx;
      dx * (a1 * u + b1 * v);
    }
  }

  /** Two solutions differ by a solution of the reduced homogeneous equation. */
  lemma DifferenceIsHomogeneous(a: int, b: int, c: int, d: int, a1: int, b1: int, x0: int, y0: int, x: int, y: int)
    requires d > 0 && a == d * a1 && b == d * b1
    requires Solves(a, b, c, x0, y0) && Solves(a, b, c, x, y)
    ensures a1 * (x - x0) + b1 * (y - y0) == 0
  {
    assert d * (a1 * (x - x0) + b1 * (y - y0)) == (a * x + b * y) - (a * x0 + b * y0);
    if a1 * (x - x0) + b1 * (y - y0) != 0 {
      MulAbsLower(d, a1 * (x - x0) + b1 * (y - y0));
    }
  }

  /** With a = d*a1, b = d*b1, c = d*c1 and a1*u + b1*v = 1, the family
      (c1*u - b1*k, c1*v + a1*k) is exactly the solution set of a*x + b*y = c. */
  lemma FamilyIsSolutionSet(a: int, b: int, c: int, d: int, a1: int, b1: int, c1: int, u: int, v: int, sol: Solutions)
    requires d > 0 && a == d * a1 && b == d * b1 && c == d * c1 && a1 * u + b1 * v == 1
    requires sol == Family(c1 * u, c1 * v, -b1, a1)
    ensures sol.alpha * d == -b && sol.beta * d == a
    ensures forall k :: Solves(a, b, c, sol.At(k).0, sol.At(k).1)
    ensures forall x, y :: Solves(a, b, c, x, y) <==> InFamily(sol, x, y)
  {
    forall k
      ensures Solves(a, b, c, sol.At(k).0, sol.At(k).1)
    {
      FamilySolves(a, b, c, d, a1, b1, c1, u, v, k);
    }
    var x0, y0 := c1 * u, c1 * v;
    assert Solves(a, b, c, x0, y0) by {
      assert sol.At(0) == (x0, y0);
    }
    forall x, y
      ensures Solves(a, b, c, x, y) <==> InFamily(sol, x, y)
    {
      if Solves(a, b, c, x, y) {
        DifferenceIsHomogeneous(a, b, c, d, a1, b1, x0, y0, x, y);
        var k := SolutionInFamily(a1, b1, u, v, x - x0, y - y0);
        assert sol.At(k) == (x, y);
      }
    }
  }

  /** resoud_equation: all integer solutions of a*x + b*y = c, or none when the
      greatest common divisor of a and b does not divide c. */
  method ResoudEquation(a: int, b: int, c: int) returns (sol: Solutions)
    requires a != 0 || b != 0
    ensures sol.NoSolution? <==> !Divides(Gcd(a, b), c)
    ensures sol.Family? ==> sol.alpha * Gcd(a, b) == -b && sol.beta * Gcd(a, b) == a
    ensures sol.Family? ==> forall k :: Solves(a, b, c, sol.At(k).0, sol.At(k).1)
    ensures forall x, y :: Solves(a, b, c, x, y) <==> InFamily(sol, x, y)
  {
    var d := Pgcd(a, b);
    GcdPositive(a, b);
    var c1, r := FloorDiv(c, d), FloorMod(c, d);
    FloorExact(c, d);
    if r != 0 {
      forall x, y | Solves(a, b, c, x, y)
        ensures false
      {
        GcdDividesCombination(a, b, x, y);
      }
      return NoSolution;
    }
    var a1, b1 := FloorDiv(a, d), FloorDiv(b, d);
    GcdDivides(a, b);
    FloorExact(a, d);
    FloorExact(b, d);
    ReducedCoprime(a, b, d, a1, b1);
    var d1, u, v := EuclideEtendu(a1, b1);
    sol := Family(c1 * u, c1 * v, -b1, a1);
    FamilyIsSolutionSet(a, b, c, d, a1, b1, c1, u, v, sol);
  }

  // ---------------------------------------------------------------------------
  // Sieve of Eratosthenes
  // ---------------------------------------------------------------------------

  /** m (between 2 and n) has been struck out once every p' < p has been sieved:
      some q in [2, p), smaller than m, divides m. */
  ghost predicate Struck(m: int, p: int, n: int)
  {
    2 <= m <= n && exists q :: 2 <= q < p && q < m && Divides(q, m)
  }

  /** Sieving with p strikes out the proper multiples of p up to n. */
  lemma StruckAddPrime(m: int, p: int, n: int)
    requires p >= 2
    ensures Struck(m, p + 1, n) <==> Struck(m, p, n) || (p < m <= n && Divides(p, m))
  {
  }

  /** A composite p strikes out nothing new: its multiples are multiples of a smaller divisor. */
  lemma StruckComposite(m: int, p: int, n: int)
    requires p >= 2 && !IsPrime(p)
    ensures Struck(m, p + 1, n) <==> Struck(m, p, n)
  {
    if Struck(m, p + 1, n) && !Struck(m, p, n) {
      var r :| 2 <= r < p && Divides(r, p);
      DividesTransitive(r, p, m);
      assert false;
    }
  }

  /** p (at most n) is struck out after sieving with every smaller number exactly when it is composite. */
  lemma StruckSelf(p: int, n: int)
    requires 2 <= p <= n
    ensures Struck(p, p, n) <==> !IsPrime(p)
  {
  }

  /** Once p*p > n, the numbers in [p, n] left standing are the primes. */
  lemma SieveComplete(k: int, p: int, n: int)
    requires 2 <= p <= k <= n && p * p > n
    ensures Struck(k, p, n) <==> !IsPrime(k)
  {
    if !IsPrime(k) {
      var j := CompositeHasSmallDivisor(k);
      if j >= p {
        SquareMonotone(p, j);
      }
      assert 2 <= j < p && j < k && Divides(j, k);
    }
  }

  /** Between two consecutive multiples of p there is no other multiple. */
  lemma NoMultipleBetween(p: int, mp: int, m: int)
    requires p > 0 && Divides(p, mp) && mp < m < mp + p
    ensures !Divides(p, m)
  {
    if Divides(p, m) {
      var i := DividesWitness(p, mp);
      var j := DividesWitness(p, m);
      assert p * (j - i) == m - mp;
      MulAbsLower(p, j - i);
      assert false;
    }
  }

  /** The multiple of p after mp is mp + p, with none in between. */
  lemma NextMultiple(p: int, mp: int)
    requires p > 0 && Divides(p, mp)
    ensures Divides(p, mp + p)
    ensures forall m :: mp < m < mp + p ==> !Divides(p, m)
  {
    var i := DividesWitness(p, mp);
    assert mp + p == p * (i + 1);
    DividesMultiple(p, i + 1);
    forall m | mp < m < mp + p
      ensures !Divides(p, m)
    {
      NoMultipleBetween(p, mp, m);
    }
  }

  /** p*p <= n with p >= 2 puts p below n. */
  lemma SquareBound(p: int, n: int)
    requires p >= 2 && p * p <= n
    ensures p < n
  {
    MulNatLower(p, p);
    assert p * p == p * (p - 1) + p;
    MulNatLower(p, p - 1);
  }

  /** The inner loop of eratosthene: strike out 2p, 3p, ... up to n. Starting from the
      numbers struck by every q < p, it leaves those struck by every q <= p. */
  method StrikeMultiples(barres: set<int>, p: int, n: int) returns (b: set<int>)
    requires p >= 2
    requires forall m :: m in barres <==> Struck(m, p, n)
    ensures forall m :: m in b <==> Struck(m, p + 1, n)
  {
    b := barres;
    var mp := p + p;
    while mp <= n
      invariant mp >= p + p && Divides(p, mp)
      invariant forall m :: m in b <==> Struck(m, p, n) || (p < m < mp && m <= n && Divides(p, m))
      decreases n - mp
    {
      b := b + {mp};
      NextMultiple(p, mp);
      mp := mp + p;
    }
    forall m
      ensures m in b <==> Struck(m, p + 1, n)
    {
      StruckAddPrime(m, p, n);
    }
  }

  /** The final loop of eratosthene: once p*p > n, append the unstruck numbers of [p, n]
      to the primes below p, giving the primes up to n in ascending order. */
  method ReadOffPrimes(premiers: seq<int>, barres: set<int>, p: int, n: int) returns (r: seq<int>)
    requires p >= 2 && p * p > n && (p == 2 || p <= n)
    requires forall m :: m in barres <==> Struck(m, p, n)
    requires forall x :: x in premiers <==> 2 <= x < p && IsPrime(x)
    requires StrictlyAscending(premiers)
    requires forall i :: 0 <= i < |premiers| ==> premiers[i] < p
    ensures forall x :: x in r <==> 2 <= x <= n && IsPrime(x)
    ensures StrictlyAscending(r)
  {
    r := premiers;
    var k := p;
    while k <= n
      invariant p <= k && (k <= n + 1 || k == p)
      invariant forall x :: x in r <==> 2 <= x < k && IsPrime(x)
      invariant StrictlyAscending(r)
      invariant forall i :: 0 <= i < |r| ==> r[i] < k
      decreases n - k
    {
      SieveComplete(k, p, n);
      if k !in barres {
        r := r + [k];
      }
      k := k + 1;
    }
  }

  /** eratosthene: the ascending list of the primes up to n. Numbers are struck out
      by every unstruck p with p*p <= n, from 2p upwards; the rest of [p, n] is
      then read off. For n < 2 the list is empty. */
  method Eratosthene(n: int) returns (premiers: seq<int>)
    ensures forall x :: x in premiers <==> 2 <= x <= n && IsPrime(x)
    ensures StrictlyAscending(premiers)
  {
    premiers := [];
    var barres: set<int> := {};
    var p := 2;
    while p * p <= n
      invariant p >= 2 && (p == 2 || p <= n)
      invariant forall m :: m in barres <==> Struck(m, p, n)
      invariant forall x :: x in premiers <==> 2 <= x < p && IsPrime(x)
      invariant StrictlyAscending(premiers)
      invariant forall i :: 0 <= i < |premiers| ==> premiers[i] < p
      decreases n - p
    {
      SquareBound(p, n);
      StruckSelf(p, n);
      if p !in barres {
        premiers := premiers + [p];
        barres := StrikeMultiples(barres, p, n);
      } else {
        forall m
          ensures Struck(m, p + 1, n) <==> Struck(m, p, n)
        {
          StruckComposite(m, p, n);
        }
      }
      p := p + 1;
    }
    premiers := ReadOffPrimes(premiers, barres, p, n);
  }

  /** est_premier1: n is prime exactly when the sieve up to n lists it. */
  method EstPremier1(n: int) returns (b: bool)
    ensures b <==> IsPrime(n)
  {
    var premiers := Eratosthene(n);
    b := n in premiers;
  }

  // ---------------------------------------------------------------------------
  // Factorization by trial division
  // ---------------------------------------------------------------------------

  /** Moving one factor p from m to the power of p keeps the product. */
  lemma ShiftFactor(f: int, pa: int, p: int, m: int)
    ensures f * pa * (p * m) == f * (p * pa) * m
  {
    calc {
      f * pa * (p * m);
      f * ((pa * p) * m);
      { assert pa * p == p * pa; }
      f * ((p * pa) * m);
    }
  }

  /** Dividing m by a divisor p keeps the absence of divisors below p. */
  lemma NoDivisorBelowQuotient(m: int, p: int, q: int)
    requires m == p * q && NoDivisorBelow(m, p)
    ensures NoDivisorBelow(q, p)
  {
    forall k | 2 <= k < p
      ensures !Divides(k, q)
    {
      if Divides(k, q) {
        DividesMultiple(q, p);
        assert m == q * p;
        DividesTransitive(k, q, m);
      }
    }
  }

  /** One division step of factorise: p divides m, so p is prime and m // p
      keeps the loop's facts. */
  lemma DivideOut(n: int, f: int, p: int, alpha: nat, m: int)
    requires m >= 1 && p >= 2 && (m == 1 || p <= m)
    requires n == f * Pow(p, alpha) * m && NoDivisorBelow(m, p)
    requires FloorMod(m, p) == 0
    ensures IsPrime(p)
    ensures var q := FloorDiv(m, p);
      && 1 <= q < m && (q == 1 || p <= q)
      && n == f * Pow(p, alpha + 1) * q
      && NoDivisorBelow(q, p)
  {
    FloorExact(m, p);
    var q := FloorDiv(m, p);
    assert IsSmallestDivisor(p, m);
    SmallestDivisorIsPrime(p, m);
    NoDivisorBelowQuotient(m, p, q);
    ShiftFactor(f, Pow(p, alpha), p, q);
    if q > 1 && p > q {
      DividesMultiple(q, 1);
      assert false;
    }
    if q >= m {
      MulNatLower(q, p);
      assert q * p == q + q * (p - 1);
      MulNatLower(q, p - 1);
    }
  }

  /** A factor list of prime powers stands for 1 only when it is empty. */
  lemma EmptyFactorizationOfOne(n: int, fs: seq<Factor>)
    requires IsFactorization(n, fs)
    ensures fs == [] <==> n == 1
  {
    if fs != [] {
      ListedPrimeDivides(n, fs, 0);
      if n == 1 {
        DividesBound(fs[0].prime, 1);
      }
    }
  }

  /** The other step of factorise: p does not divide m, so (p, alpha) is recorded
      when alpha > 0, and trial division moves on to p + 1 with alpha = 0. */
  lemma NextCandidate(n: int, fs: seq<Factor>, p: int, alpha: nat, m: int)
    requires m > 1 && p >= 2 && p <= m
    requires n == Product(fs) * Pow(p, alpha) * m && NoDivisorBelow(m, p)
    requires alpha > 0 ==> IsPrime(p)
    requires PrimePowers(fs) && Ascending(fs)
    requires forall i :: 0 <= i < |fs| ==> fs[i].prime < p
    requires FloorMod(m, p) != 0
    ensures var gs := if alpha != 0 then fs + [Factor(p, alpha)] else fs;
      && p + 1 <= m
      && n == Product(gs) * Pow(p + 1, 0) * m
      && NoDivisorBelow(m, p + 1)
      && PrimePowers(gs) && Ascending(gs)
      && forall i :: 0 <= i < |gs| ==> gs[i].prime < p + 1
  {
    FloorExact(m, p);
    assert p != m by {
      DividesMultiple(m, 1);
    }
    if alpha != 0 {
      ProductAppend(fs, Factor(p, alpha));
    }
  }

  /** What a factorization of n is worth: each exponent is the largest power of
      its prime dividing n, no other list is a factorization of n, and the list
      is empty exactly for n = 1. */
  lemma FactorizationFacts(n: int, fs: seq<Factor>)
    requires IsFactorization(n, fs)
    ensures forall i :: 0 <= i < |fs| ==>
      Divides(Pow(fs[i].prime, fs[i].exponent), n) &&
      !Divides(Pow(fs[i].prime, fs[i].exponent + 1), n)
    ensures forall gs :: IsFactorization(n, gs) ==> gs == fs
    ensures fs == [] <==> n == 1
  {
    forall i | 0 <= i < |fs|
      ensures Divides(Pow(fs[i].prime, fs[i].exponent), n)
      ensures !Divides(Pow(fs[i].prime, fs[i].exponent + 1), n)
    {
      ExponentIsMaximal(n, fs, i);
    }
    forall gs | IsFactorization(n, gs)
      ensures gs == fs
    {
      FactorizationUnique(n, gs, fs);
    }
    EmptyFactorizationOfOne(n, fs);
  }

  /** factorise: trial division by p = 2, 3, ...; alpha counts how often p has
      divided m, and (p, alpha) is recorded when p stops dividing. The result is
      the factorization of n, each exponent being the largest alpha with p^alpha | n. */
  method Factorise(n: int) returns (facteurs: seq<Factor>)
    requires n >= 1
    ensures IsFactorization(n, facteurs)
    ensures forall i :: 0 <= i < |facteurs| ==>
      Divides(Pow(facteurs[i].prime, facteurs[i].exponent), n) &&
      !Divides(Pow(facteurs[i].prime, facteurs[i].exponent + 1), n)
    ensures forall gs :: IsFactorization(n, gs) ==> gs == facteurs
    ensures facteurs == [] <==> n == 1
  {
    var m := n;
    facteurs := [];
    var p := 2;
    var alpha: nat := 0;
    while m != 1
      invariant m >= 1 && p >= 2 && (m == 1 || p <= m)
      invariant n == Product(facteurs) * Pow(p, alpha) * m
      invariant NoDivisorBelow(m, p)
      invariant alpha > 0 ==> IsPrime(p)
      invariant PrimePowers(facteurs) && Ascending(facteurs)
      invariant forall i :: 0 <= i < |facteurs| ==> facteurs[i].prime < p
      decreases m, m - p
    {
      if FloorMod(m, p) == 0 {
        var q := FloorDiv(m, p);
        DivideOut(n, Product(facteurs), p, alpha, m);
        alpha := alpha + 1;
        m := q;
      } else {
        NextCandidate(n, facteurs, p, alpha, m);
        if alpha != 0 {
          facteurs := facteurs + [Factor(p, alpha)];
        }
        p := p + 1;
        alpha := 0;
      }
    }
    if alpha != 0 {
      ProductAppend(facteurs, Factor(p, alpha));
      facteurs := facteurs + [Factor(p, alpha)];
    }
    FactorizationFacts(n, facteurs);
  }

  // ---------------------------------------------------------------------------
  // Smallest divisors and primality by trial division
  // ---------------------------------------------------------------------------

  /** plus_petit_diviseur1: try d = 2, 3, ... until d divides n. */
  method PlusPetitDiviseur1(n: int) returns (d: int)
    requires n >= 2
    ensures IsSmallestDivisor(d, n)
    ensures IsPrime(d)
  {
    d := 2;
    while FloorMod(n, d) != 0
      invariant 2 <= d <= n && NoDivisorBelow(n, d)
      decreases n - d
    {
      FloorExact(n, d);
      assert d != n by {
        DividesMultiple(n, 1);
      }
      d := d + 1;
    }
    FloorExact(n, d);
    SmallestDivisorIsPrime(d, n);
  }

  /** plus_petit_diviseur: trial division stops once d*d > n, in which case n
      itself is its smallest divisor. */
  method PlusPetitDiviseur(n: int) returns (d: int)
    requires n >= 2
    ensures IsSmallestDivisor(d, n)
    ensures IsPrime(d)
  {
    d := 2;
    while d * d <= n && FloorMod(n, d) != 0
      invariant d >= 2 && NoDivisorBelow(n, d)
      decreases n - d
    {
      SquareBound(d, n);
      FloorExact(n, d);
      d := d + 1;
    }
    if d * d <= n {
      SquareBound(d, n);
      FloorExact(n, d);
    } else {
      NoSmallDivisorMeansPrime(n, d);
      PrimeIffOwnSmallestDivisor(n);
      d := n;
    }
    SmallestDivisorIsPrime(d, n);
  }

  /** est_premier2: n is prime exactly when it is its own smallest divisor. */
  method EstPremier2(n: int) returns (b: bool)
    requires n >= 2
    ensures b <==> IsPrime(n)
  {
    var d := PlusPetitDiviseur(n);
    b := d == n;
    PrimeIffOwnSmallestDivisor(n);
    if IsPrime(n) {
      SmallestDivisorUnique(d, n, n);
    }
  }

  // ---------------------------------------------------------------------------
  // Fast modular exponentiation, Fermat witnesses, Carmichael numbers
  // ---------------------------------------------------------------------------

  /** One round of square-and-multiply keeps r * s^k unchanged modulo n. */
  lemma SquareAndMultiplyStep(r: int, s: int, k: int, n: int)
    requires n > 0 && k > 0
    ensures var r' := if k % 2 == 1 then (r * s) % n else r;
      (r' * Pow((s * s) % n, k / 2)) % n == (r * Pow(s, k)) % n
  {
    var t := if k % 2 == 1 then s else 1;
    var big := Pow(s * s, k / 2);
    var small := Pow((s * s) % n, k / 2);
    var r' := if k % 2 == 1 then (r * s) % n else r;
    PowHalving(s, k);
    PowMod(s * s, k / 2, n);
    assert r' % n == (r * t) % n by {
      if k % 2 == 1 {
        DivModUnique((r * s) % n, n, 0, (r * s) % n);
      }
    }
    ModMul(r', small, n);
    ModMul(r * t, big, n);
    MulAssociative(r, t, big);
  }

  /** expo_mod_rapide: a^b mod n by square-and-multiply. For b = 0 the source
      returns 1 without reducing it, so the result is a^b mod n except when
      b = 0 and n = 1. */
  method ExpoModRapide(a: int, b: int, n: int) returns (r: int)
    requires b >= 0 && n > 0
    ensures b > 0 ==> r == Pow(a, b) % n
    ensures b == 0 ==> r == 1
    ensures r % n == Pow(a, b) % n
  {
    var s, k := a, b;
    r := 1;
    PowTwo(s);
    while k != 0
      invariant k >= 0
      invariant (r * Pow(s, k)) % n == Pow(a, b) % n
      invariant b > 0 && k == 0 ==> 0 <= r < n
      invariant b == 0 ==> k == 0 && r == 1
      decreases k
    {
      SquareAndMultiplyStep(r, s, k, n);
      if FloorMod(k, 2) == 1 {
        r := FloorMod(r * s, n);
      }
      s := FloorMod(s * s, n);
      k := FloorDiv(k, 2);
    }
    assert Pow(s, 0) == 1;
    if b > 0 {
      DivModUnique(r, n, 0, r);
    }
  }

  /** est_temoin_non_primalite: a is a Fermat witness that n is composite when
      a is coprime to n and a^(n-1) is not 1 modulo n. */
  method EstTemoinNonPrimalite(a: int, n: int) returns (w: bool)
    requires n > 1
    ensures w <==> IsFermatWitness(a, n)
    ensures w ==> !IsPrime(n)
  {
    var d := Pgcd(a, n);
    if d != 1 {
      return false;
    }
    var r := ExpoModRapide(a, n - 1, n);
    w := r != 1;
    if w {
      WitnessMeansComposite(a, n);
    }
  }

  /** est_premier_probable_fermat with its random draws made explicit: draws holds
      the nbtentatives values that randrange(2, n - 1) returned. n is declared a
      probable prime when none of them is a Fermat witness; a prime is never
      declared composite. */
  method EstPremierProbableFermat(n: int, draws: seq<int>) returns (b: bool)
    requires n >= 3
    requires forall i :: 0 <= i < |draws| ==> 2 <= draws[i] < n - 1
    ensures b <==> forall i :: 0 <= i < |draws| ==> !IsFermatWitness(draws[i], n)
    ensures IsPrime(n) ==> b
  {
    var k := 0;
    while k < |draws|
      invariant 0 <= k <= |draws|
      invariant forall i :: 0 <= i < k ==> !IsFermatWitness(draws[i], n)
    {
      var w := EstTemoinNonPrimalite(draws[k], n);
      if w {
        return false;
      }
      k := k + 1;
    }
    b := true;
  }

  /** est_carmichael: Korselt's criterion read off the factorization of n: more
      than one prime factor, every exponent 1, and p - 1 dividing n - 1. */
  method EstCarmichael(n: int) returns (c: bool)
    requires n > 0
    ensures c <==> KorseltCriterion(n)
    ensures c ==> IsCarmichael(n)
  {
    var fact := Factorise(n);
    var r := |fact|;
    c := r > 1
      && (forall i :: 0 <= i < r ==> fact[i].exponent == 1)
      && (forall i :: 0 <= i < r ==> FloorMod(n - 1, fact[i].prime - 1) == 0);
    forall i | 0 <= i < r
      ensures FloorMod(n - 1, fact[i].prime - 1) == 0 <==> Divides(fact[i].prime - 1, n - 1)
    {
      FloorExact(n - 1, fact[i].prime - 1);
    }
    KorseltFromFactorization(n, fact);
    if c {
      KorseltMeansCarmichael(n, fact);
    }
  }
}

=== FILE: divisibility.dfy ===
/** Divisibility of integers, and the two division conventions the module mixes:
    Dafny's Euclidean `/` and `%` (remainder never negative) and Python's floor
    division `//`, `%` and `divmod` (remainder takes the sign of the divisor). */
module Divisibility {

  function Abs(x: int): nat
  {
    if x < 0 then -x else x
  }

  /** d divides n: n is a multiple of d. Zero divides only zero. */
  predicate Divides(d: int, n: int)
  {
    if d == 0 then n == 0 else n % d == 0
  }

  /** A product of naturals with a positive factor is at least the other factor. */
  lemma MulNatLower(a: nat, b: nat)
    requires b >= 1
    ensures a * b >= a
  {
    var c: nat := b - 1;
    assert a * b == a * c + a;
  }

  lemma AbsMul(y: int, m: int)
    ensures Abs(y * m) == Abs(y) * Abs(m)
  {
    if y < 0 && m < 0 {
      assert y * m == (-y) * (-m);
    } else if y < 0 {
      assert y * m == -((-y) * m);
    } else if m < 0 {
      assert y * m == -(y * (-m));
    }
  }

  /** Products of a nonzero factor are at least as large as the other factor in absolute value. */
  lemma MulAbsLower(y: int, m: int)
    requires m != 0
    ensures Abs(y * m) >= Abs(y)
  {
    AbsMul(y, m);
    MulNatLower(Abs(y), Abs(m));
  }

  /** Euclidean division has exactly one quotient and remainder. */
  lemma DivModUnique(x: int, y: int, q: int, r: int)
    requires y != 0
    requires x == y * q + r && 0 <= r < Abs(y)
    ensures q == x / y && r == x % y
  {
    var q', r' := x / y, x % y;
    assert y * q' + r' == y * q + r;
    if q != q' {
      assert y * (q - q') == r' - r;
      MulAbsLower(y, q - q');
      assert false;
    }
  }

  lemma MulAssociative(a: int, b: int, c: int)
    ensures (a * b) * c == a * (b * c)
  {
  }

  /** A multiple of d is divisible by d. */
  lemma DividesMultiple(d: int, k: int)
    ensures Divides(d, d * k)
  {
    if d != 0 {
      DivModUnique(d * k, d, k, 0);
    }
  }

  /** When d divides n, the cofactor exists. */
  lemma DividesWitness(d: int, n: int) returns (k: int)
    requires Divides(d, n)
    ensures n == d * k
  {
    if d == 0 {
      k := 0;
    } else {
      k := n / d;
    }
  }

  /** Common divisors of x and y divide every integer combination s*x + t*y. */
  lemma DividesCombination(c: int, x: int, y: int, s: int, t: int)
    requires Divides(c, x) && Divides(c, y)
    ensures Divides(c, s * x + t * y)
  {
    var kx := DividesWitness(c, x);
    var ky := DividesWitness(c, y);
    calc {
      s * x + t * y;
      s * (c * kx) + t * (c * ky);
      c * (s * kx) + c * (t * ky);
      c * (s * kx + t * ky);
    }
    DividesMultiple(c, s * kx + t * ky);
  }

  /** Sums and differences of multiples of c are multiples of c. */
  lemma DividesSum(c: int, x: int, y: int)
    requires Divides(c, x) && Divides(c, y)
    ensures Divides(c, x + y) && Divides(c, x - y)
  {
    var kx := DividesWitness(c, x);
    var ky := DividesWitness(c, y);
    assert x + y == c * (kx + ky);
    assert x - y == c * (kx - ky);
    DividesMultiple(c, kx + ky);
    DividesMultiple(c, kx - ky);
  }

  /** Subtracting a multiple of y changes nothing about divisibility by a divisor of y. */
  lemma DividesShift(c: int, x: int, y: int, q: int)
    requires Divides(c, y)
    ensures Divides(c, x) <==> Divides(c, x - q * y)
  {
    var t := q * y;
    DividesMultiple(y, q);
    DividesTransitive(c, y, t);
    if Divides(c, x) {
      DividesSum(c, x, t);
    }
    if Divides(c, x - t) {
      DividesSum(c, x - t, t);
    }
  }

  lemma DividesTransitive(a: int, b: int, c: int)
    requires Divides(a, b) && Divides(b, c)
    ensures Divides(a, c)
  {
    var k := DividesWitness(a, b);
    var l := DividesWitness(b, c);
    assert c == a * (k * l);
    DividesMultiple(a, k * l);
  }

  /** Divisibility ignores signs on both sides. */
  lemma DividesSigns(d: int, n: int)
    ensures Divides(d, n) <==> Divides(d, -n)
    ensures Divides(d, n) <==> Divides(-d, n)
    ensures Divides(d, n) <==> Divides(Abs(d), Abs(n))
  {
    if Divides(d, n) {
      var k := DividesWitness(d, n);
      assert -n == d * (-k);
      DividesMultiple(d, -k);
      assert n == (-d) * (-k);
      DividesMultiple(-d, -k);
      if d < 0 && n < 0 {
        assert Abs(n) == Abs(d) * k;
      } else if d < 0 {
        assert Abs(n) == Abs(d) * (-k);
      } else if n < 0 {
        assert Abs(n) == Abs(d) * (-k);
      } else {
        assert Abs(n) == Abs(d) * k;
      }
      DividesMultiple(Abs(d), k);
      DividesMultiple(Abs(d), -k);
    }
    if Divides(d, -n) {
      var k := DividesWitness(d, -n);
      assert n == d * (-k);
      DividesMultiple(d, -k);
    }
    if Divides(-d, n) {
      var k := DividesWitness(-d, n);
      assert n == d * (-k);
      DividesMultiple(d, -k);
    }
    if Divides(Abs(d), Abs(n)) {
      var k := DividesWitness(Abs(d), Abs(n));
      if d < 0 && n < 0 {
        assert n == d * k;
        DividesMultiple(d, k);
      } else if d < 0 || n < 0 {
        assert n == d * (-k);
        DividesMultiple(d, -k);
      } else {
        DividesMultiple(d, k);
      }
    }
  }

  /** A nonzero multiple of d is at least |d| in absolute value. */
  lemma DividesBound(d: int, n: int)
    requires Divides(d, n) && n != 0
    ensures Abs(d) <= Abs(n)
  {
    var k := DividesWitness(d, n);
    assert k != 0;
    MulAbsLower(d, k);
  }

  /** Two nonnegative integers that divide each other are equal. */
  lemma DividesAntisymmetric(a: int, b: int)
    requires a >= 0 && b >= 0
    requires Divides(a, b) && Divides(b, a)
    ensures a == b
  {
    if a != 0 && b != 0 {
      DividesBound(a, b);
      DividesBound(b, a);
    }
  }

  /** Quotient of Python's floor division `x // y`. */
  function FloorDiv(x: int, y: int): int
    requires y != 0
  {
    if y < 0 && x % y != 0 then x / y - 1 else x / y
  }

  /** Remainder of Python's floor division `x % y`: it has the sign of the divisor. */
  function FloorMod(x: int, y: int): (r: int)
    requires y != 0
    ensures x == y * FloorDiv(x, y) + r
    ensures 0 < y ==> 0 <= r < y
    ensures y < 0 ==> y < r <= 0
  {
    if y < 0 && x % y != 0 then x % y + y else x % y
  }

  /** Floor division has exactly one quotient and remainder: the pair Python's divmod returns. */
  lemma FloorDivModUnique(x: int, y: int, q: int, r: int)
    requires y != 0
    requires x == y * q + r
    requires (0 < y && 0 <= r < y) || (y < 0 && y < r <= 0)
    ensures q == FloorDiv(x, y) && r == FloorMod(x, y)
  {
    if y > 0 {
      DivModUnique(x, y, q, r);
    } else if r == 0 {
      DivModUnique(x, y, q, 0);
    } else {
      assert x == y * (q + 1) + (r - y);
      DivModUnique(x, y, q + 1, r - y);
    }
  }

  /** For a positive divisor, d divides x exactly when the floor remainder is zero,
      and then the floor quotient is the cofactor. */
  lemma FloorExact(x: int, d: int)
    requires d > 0
    ensures Divides(d, x) <==> FloorMod(x, d) == 0
    ensures Divides(d, x) ==> x == d * FloorDiv(x, d)
  {
  }
}

=== FILE: doctests.dfy ===
/** The docstring examples of the source, stated on the model's definitions and
    proved from them rather than evaluated. Each lemma pins the result that the
    contract of the corresponding method allows. */
module Doctests {
  import opened Divisibility
  import opened GcdTheory
  import opened Primes
  import opened Powers
  import opened Factorization
  import opened Fermat
  import opened Arithmetique
  import opened PrimeTables

  lemma ProductOfThree(a: Factor, b: Factor, c: Factor)
    ensures Product([a, b, c]) == Pow(a.prime, a.exponent) * Pow(b.prime, b.exponent) * Pow(c.prime, c.exponent)
  {
    ProductAppend([], a);
    assert [] + [a] == [a];
    ProductAppend([a], b);
    assert [a] + [b] == [a, b];
    ProductAppend([a, b], c);
    assert [a, b] + [c] == [a, b, c];
  }

  /** The primes the examples below use. */
  lemma SmallPrimes()
    ensures IsPrime(2) && IsPrime(3) && IsPrime(7) && IsPrime(11) && IsPrime(17)
  {
    PrimeByTrial(2);
    PrimeByTrial(3);
    PrimeByTrial(7);
    PrimeByTrial(11);
    PrimeByTrial(17);
  }

  /** factorise(504) == [(2, 3), (3, 2), (7, 1)]: this is the one factorization of 504. */
  lemma Factorization504(gs: seq<Factor>)
    requires IsFactorization(504, gs)
    ensures gs == [Factor(2, 3), Factor(3, 2), Factor(7, 1)]
  {
    var fs := [Factor(2, 3), Factor(3, 2), Factor(7, 1)];
    SmallPrimes();
    ProductOfThree(Factor(2, 3), Factor(3, 2), Factor(7, 1));
    assert Pow(2, 3) == 8 && Pow(3, 2) == 9 && Pow(7, 1) == 7;
    FactorizationUnique(504, gs, fs);
  }

  /** est_carmichael(561) is True: 561 = 3 * 11 * 17 meets Korselt's criterion
      and is a Carmichael number. */
  lemma Carmichael561()
    ensures KorseltCriterion(561)
    ensures IsCarmichael(561)
  {
    var fs := [Factor(3, 1), Factor(11, 1), Factor(17, 1)];
    SmallPrimes();
    ProductOfThree(Factor(3, 1), Factor(11, 1), Factor(17, 1));
    assert Pow(3, 1) == 3 && Pow(11, 1) == 11 && Pow(17, 1) == 17;
    assert IsFactorization(561, fs);
    assert KorseltOnFactors(561, fs);
    KorseltFromFactorization(561, fs);
    KorseltMeansCarmichael(561, fs);
  }

  /** est_premier2(9927) is False: 3 divides 9927. */
  lemma Composite9927()
    ensures !IsPrime(9927)
  {
    assert Divides(3, 9927);
  }

  /** expo_mod_rapide(14, 3141, 17) == 12, by Fermat's little theorem:
      3141 = 16 * 196 + 5 and 14^5 = 537824 = 12 modulo 17. The exponent is a
      parameter fixed by the precondition, so that 14^3141 is never unfolded. */
  lemma ExpoMod14Pow3141(e: nat)
    requires e == 3141
    ensures Pow(14, e) % 17 == 12
  {
    SmallPrimes();
    Coprime14And17();
    var q: nat := 196;
    assert e == (17 - 1) * q + 5;
    FermatReduce(14, 17, q, 5);
    Pow14To5();
  }

  /** 14 and 17 are coprime: 14 * (-6) + 17 * 5 = 1. */
  lemma Coprime14And17()
    ensures Gcd(14, 17) == 1
  {
    GcdFromCombination(14, 17, 1, -6, 5);
  }

  lemma Pow14To5()
    ensures Pow(14, 5) % 17 == 12
  {
  }

  /** plus_petit_diviseur(9927) and plus_petit_diviseur1(9927) are 3. */
  lemma SmallestDivisor9927(d: int)
    requires IsSmallestDivisor(d, 9927)
    ensures d == 3
  {
    assert IsSmallestDivisor(3, 9927);
    SmallestDivisorUnique(d, 3, 9927);
  }

  /** est_premier1(9929) and est_premier2(9929) are True: no number below 100 divides 9929. */
  lemma Prime9929()
    ensures IsPrime(9929)
  {
    assert NoDivisorIn(9929, 2, 10);
    NoDivisorInMeans(9929, 2, 10);
    assert NoDivisorIn(9929, 10, 20);
    NoDivisorInMeans(9929, 10, 20);
    assert NoDivisorIn(9929, 20, 30);
    NoDivisorInMeans(9929, 20, 30);
    assert NoDivisorIn(9929, 30, 40);
    NoDivisorInMeans(9929, 30, 40);
    assert NoDivisorIn(9929, 40, 50);
    NoDivisorInMeans(9929, 40, 50);
    assert NoDivisorIn(9929, 50, 60);
    NoDivisorInMeans(9929, 50, 60);
    assert NoDivisorIn(9929, 60, 70);
    NoDivisorInMeans(9929, 60, 70);
    assert NoDivisorIn(9929, 70, 80);
    NoDivisorInMeans(9929, 70, 80);
    assert NoDivisorIn(9929, 80, 90);
    NoDivisorInMeans(9929, 80, 90);
    assert NoDivisorIn(9929, 90, 100);
    NoDivisorInMeans(9929, 90, 100);
    NoSmallDivisorMeansPrime(9929, 100);
  }

  /** mon_divmod(10, 3) == (3, 1) and mon_divmod(12, 3) == (4, 0). */
  lemma DivModExamples()
    ensures FloorDiv(10, 3) == 3 && FloorMod(10, 3) == 1
    ensures FloorDiv(12, 3) == 4 && FloorMod(12, 3) == 0
  {
    FloorDivModUnique(10, 3, 3, 1);
    FloorDivModUnique(12, 3, 4, 0);
  }

  /** pgcd(12, 8) == 4, pgcd(0, 3) == 3 and pgcd(42, 26) == 2 whatever the signs. */
  lemma GcdExamples()
    ensures Gcd(12, 8) == 4 && Gcd(0, 3) == 3
    ensures Gcd(42, 26) == 2 && Gcd(-42, 26) == 2 && Gcd(42, -26) == 2 && Gcd(-42, -26) == 2
  {
    assert CommonDivisor(4, 12, 8);
    GcdFromCombination(12, 8, 4, 1, -1);
    GcdSymmetries(0, 3);
    assert CommonDivisor(2, 42, 26);
    GcdFromCombination(42, 26, 2, 5, -8);
    GcdSymmetries(42, 26);
    GcdSymmetries(-42, 26);
  }

  /** inverse_mod(3, 7) == 5 and inverse_mod(3, 26) == 9: 3 is invertible modulo
      7 and 26, and these are the only inverses in [0, n). */
  lemma InverseExamples(x: int, y: int)
    ensures Gcd(3, 7) == 1 && Gcd(3, 26) == 1
    ensures Divides(7, 3 * 5 - 1) && Divides(26, 3 * 9 - 1)
    ensures 0 <= x < 7 && Divides(7, 3 * x - 1) ==> x == 5
    ensures 0 <= y < 26 && Divides(26, 3 * y - 1) ==> y == 9
  {
    GcdFromCombination(3, 7, 1, -2, 1);
    GcdFromCombination(3, 26, 1, 9, -1);
    assert Divides(7, 3 * 5 - 1);
    assert Divides(26, 3 * 9 - 1);
    if 0 <= x < 7 && Divides(7, 3 * x - 1) {
      InverseUnique(3, 7, x, 5);
    }
    if 0 <= y < 26 && Divides(26, 3 * y - 1) {
      InverseUnique(3, 26, y, 9);
    }
  }

  /** resoud_equation(4, 6, 5) == (): gcd(4, 6) = 2 does not divide 5. */
  lemma NoSolution465()
    ensures Gcd(4, 6) == 2 && !Divides(Gcd(4, 6), 5)
  {
    assert CommonDivisor(2, 4, 6);
    GcdFromCombination(4, 6, 2, -1, 1);
  }

  /** factorise(1) == [] and factorise(2) == [(2, 1)]: the only factorizations of 1 and 2. */
  lemma SmallFactorizations(fs: seq<Factor>, gs: seq<Factor>)
    requires IsFactorization(1, fs) && IsFactorization(2, gs)
    ensures fs == [] && gs == [Factor(2, 1)]
  {
    FactorizationFacts(1, fs);
    SmallPrimes();
    assert Product([Factor(2, 1)]) == 2 by {
      ProductAppend([], Factor(2, 1));
      assert [] + [Factor(2, 1)] == [Factor(2, 1)];
    }
    FactorizationUnique(2, gs, [Factor(2, 1)]);
  }

  /** plus_petit_diviseur(9929) and plus_petit_diviseur1(9929) are 9929, a prime. */
  lemma SmallestDivisor9929(d: int)
    requires IsSmallestDivisor(d, 9929)
    ensures d == 9929
  {
    Prime9929();
    PrimeIffOwnSmallestDivisor(9929);
    SmallestDivisorUnique(d, 9929, 9929);
  }

  /** expo_mod_rapide(2, 10, 100) == 24: 2^10 = 1024. */
  lemma ExpoMod2Pow10()
    ensures Pow(2, 10) % 100 == 24
  {
    assert Pow(2, 5) == 32;
  }

  // ---------------------------------------------------------------------------
  // Tables of primes, certified five numbers at a time by trial division below 11
  // ---------------------------------------------------------------------------

  lemma Primes2To5()
    ensures PrimeListOf([2, 3, 5], 2, 6)
  {
    ListsPrimesCertify([2, 3, 5], 2, 6, 11);
  }

  lemma Primes6To10()
    ensures PrimeListOf([7], 6, 11)
  {
    ListsPrimesCertify([7], 6, 11, 11);
  }

  lemma Primes11To15()
    ensures PrimeListOf([11, 13], 11, 16)
  {
    ListsPrimesCertify([11, 13], 11, 16, 11);
  }

  lemma Primes16To20()
    ensures PrimeListOf([17, 19], 16, 21)
  {
    ListsPrimesCertify([17, 19], 16, 21, 11);
  }

  lemma Primes21To25()
    ensures PrimeListOf([23], 21, 26)
  {
    ListsPrimesCertify([23], 21, 26, 11);
  }

  lemma Primes26To30()
    ensures PrimeListOf([29], 26, 31)
  {
    ListsPrimesCertify([29], 26, 31, 11);
  }

  lemma Primes31To35()
    ensures PrimeListOf([31], 31, 36)
  {
    ListsPrimesCertify([31], 31, 36, 11);
  }

  lemma Primes36To40()
    ensures PrimeListOf([37], 36, 41)
  {
    ListsPrimesCertify([37], 36, 41, 11);
  }

  lemma Primes41To45()
    ensures PrimeListOf([41, 43], 41, 46)
  {
    ListsPrimesCertify([41, 43], 41, 46, 11);
  }

  lemma Primes46To50()
    ensures PrimeListOf([47], 46, 51)
  {
    ListsPrimesCertify([47], 46, 51, 11);
  }

  lemma Primes51To55()
    ensures PrimeListOf([53], 51, 56)
  {
    ListsPrimesCertify([53], 51, 56, 11);
  }

  lemma Primes56To60()
    ensures PrimeListOf([59], 56, 61)
  {
    ListsPrimesCertify([59], 56, 61, 11);
  }

  lemma Primes61To65()
    ensures PrimeListOf([61], 61, 66)
  {
    ListsPrimesCertify([61], 61, 66, 11);
  }

  lemma Primes66To70()
    ensures PrimeListOf([67], 66, 71)
  {
    ListsPrimesCertify([67], 66, 71, 11);
  }

  lemma Primes71To75()
    ensures PrimeListOf([71, 73], 71, 76)
  {
    ListsPrimesCertify([71, 73], 71, 76, 11);
  }

  lemma Primes76To80()
    ensures PrimeListOf([79], 76, 81)
  {
    ListsPrimesCertify([79], 76, 81, 11);
  }

  lemma Primes81To85()
    ensures PrimeListOf([83], 81, 86)
  {
    ListsPrimesCertify([83], 81, 86, 11);
  }

  lemma Primes86To90()
    ensures PrimeListOf([89], 86, 91)
  {
    ListsPrimesCertify([89], 86, 91, 11);
  }

  lemma Primes91To95()
    ensures PrimeListOf([], 91, 96)
  {
    ListsPrimesCertify([], 91, 96, 11);
  }

  lemma Primes96To100()
    ensures PrimeListOf([97], 96, 101)
  {
    ListsPrimesCertify([97], 96, 101, 11);
  }

  /** The primes up to 40, joined from the certificates of their chunks. */
  lemma PrimesTo40()
    ensures PrimeListOf([2, 3, 5, 7, 11, 13, 17, 19, 23, 29, 31, 37], 2, 41)
  {
    Primes2To5(); Primes6To10(); Primes11To15(); Primes16To20();
    Primes21To25(); Primes26To30(); Primes31To35(); Primes36To40();
    var s := [2, 3, 5];
    PrimeListJoin(s, [7], 2, 6, 11);
    s := s + [7];
    PrimeListJoin(s, [11, 13], 2, 11, 16);
    s := s + [11, 13];
    PrimeListJoin(s, [17, 19], 2, 16, 21);
    s := s + [17, 19];
    PrimeListJoin(s, [23], 2, 21, 26);
    s := s + [23];
    PrimeListJoin(s, [29], 2, 26, 31);
    s := s + [29];
    PrimeListJoin(s, [31], 2, 31, 36);
    s := s + [31];
    PrimeListJoin(s, [37], 2, 36, 41);
    s := s + [37];
    assert s == [2, 3, 5, 7, 11, 13, 17, 19, 23, 29, 31, 37];
  }

  /** The primes of [41, 71). */
  lemma Primes41To70()
    ensures PrimeListOf([41, 43, 47, 53, 59, 61, 67], 41, 71)
  {
    Primes41To45(); Primes46To50(); Primes51To55();
    Primes56To60(); Primes61To65(); Primes66To70();
    var s := [41, 43];
    PrimeListJoin(s, [47], 41, 46, 51);
    s := s + [47];
    PrimeListJoin(s, [53], 41, 51, 56);
    s := s + [53];
    PrimeListJoin(s, [59], 41, 56, 61);
    s := s + [59];
    PrimeListJoin(s, [61], 41, 61, 66);
    s := s + [61];
    PrimeListJoin(s, [67], 41, 66, 71);
    s := s + [67];
    assert s == [41, 43, 47, 53, 59, 61, 67];
  }

  /** The primes of [71, 101). */
  lemma Primes71To100()
    ensures PrimeListOf([71, 73, 79, 83, 89, 97], 71, 101)
  {
    Primes71To75(); Primes76To80(); Primes81To85();
    Primes86To90(); Primes91To95(); Primes96To100();
    var s := [71, 73];
    PrimeListJoin(s, [79], 71, 76, 81);
    s := s + [79];
    PrimeListJoin(s, [83], 71, 81, 86);
    s := s + [83];
    PrimeListJoin(s, [89], 71, 86, 91);
    s := s + [89];
    PrimeListJoin(s, [], 71, 91, 96);
    PrimeListJoin(s, [97], 71, 96, 101);
    s := s + [97];
    assert s == [71, 73, 79, 83, 89, 97];
  }

  /** The 25 primes up to 100. */
  lemma PrimesTo100()
    ensures PrimeListOf([2, 3, 5, 7, 11, 13, 17, 19, 23, 29, 31, 37, 41, 43, 47, 53, 59, 61, 67, 71, 73, 79, 83, 89, 97], 2, 101)
  {
    var a, b, c := [2, 3, 5, 7, 11, 13, 17, 19, 23, 29, 31, 37], [41, 43, 47, 53, 59, 61, 67], [71, 73, 79, 83, 89, 97];
    PrimesTo40();
    Primes41To70();
    Primes71To100();
    PrimeListJoin(a, b, 2, 41, 71);
    PrimeListJoin(a + b, c, 2, 71, 101);
    assert a + b + c == [2, 3, 5, 7, 11, 13, 17, 19, 23, 29, 31, 37, 41, 43, 47, 53, 59, 61, 67, 71, 73, 79, 83, 89, 97];
  }

  /** eratosthene(40) == [2, 3, 5, 7, 11, 13, 17, 19, 23, 29, 31, 37]: the
      contract of Eratosthene leaves exactly this list for n = 40. */
  lemma Eratosthene40(xs: seq<int>)
    requires forall x :: x in xs <==> 2 <= x <= 40 && IsPrime(x)
    requires StrictlyAscending(xs)
    ensures xs == [2, 3, 5, 7, 11, 13, 17, 19, 23, 29, 31, 37]
  {
    PrimesTo40();
    StrictlyAscendingUnique(xs, [2, 3, 5, 7, 11, 13, 17, 19, 23, 29, 31, 37]);
  }

  /** len(eratosthene(100)) == 25: the list that the contract of Eratosthene
      leaves for n = 100 has 25 entries. */
  lemma Eratosthene100(xs: seq<int>)
    requires forall x :: x in xs <==> 2 <= x <= 100 && IsPrime(x)
    requires StrictlyAscending(xs)
    ensures |xs| == 25
  {
    PrimesTo100();
    StrictlyAscendingUnique(xs, [2, 3, 5, 7, 11, 13, 17, 19, 23, 29, 31, 37, 41, 43, 47, 53, 59, 61, 67, 71, 73, 79, 83, 89, 97]);
  }
}

=== FILE: factorization.dfy ===
/** Prime factorizations as ascending lists of (prime, exponent) pairs, and
    Korselt's criterion for Carmichael numbers. */
module Factorization {
  import opened Divisibility
  import opened Primes
  import opened Powers

  /** One entry (p, alpha) of a factor list: the prime p raised to alpha. */
  datatype Factor = Factor(prime: int, exponent: nat)

  /** The number a factor list stands for: the product of p^alpha over its entries. */
  function Product(fs: seq<Factor>): int
  {
    if |fs| == 0 then 1
    else Product(fs[..|fs| - 1]) * Pow(fs[|fs| - 1].prime, fs[|fs| - 1].exponent)
  }

  /** Every entry is a prime with a nonzero exponent. */
  predicate PrimePowers(fs: seq<Factor>)
  {
    forall i :: 0 <= i < |fs| ==> IsPrime(fs[i].prime) && fs[i].exponent >= 1
  }

  /** The primes are strictly ascending. */
  predicate Ascending(fs: seq<Factor>)
  {
    forall i, j :: 0 <= i < j < |fs| ==> fs[i].prime < fs[j].prime
  }

  /** fs is the prime factorization of n. */
  predicate IsFactorization(n: int, fs: seq<Factor>)
  {
    PrimePowers(fs) && Ascending(fs) && Product(fs) == n
  }

  lemma ProductAppend(fs: seq<Factor>, f: Factor)
    ensures Product(fs + [f]) == Product(fs) * Pow(f.prime, f.exponent)
  {
    assert (fs + [f])[..|fs|] == fs;
  }

  lemma {:induction false} ProductConcat(xs: seq<Factor>, ys: seq<Factor>)
    ensures Product(xs + ys) == Product(xs) * Product(ys)
    decreases |ys|
  {
    if |ys| == 0 {
      assert xs + ys == xs;
    } else {
      var init, last := ys[..|ys| - 1], ys[|ys| - 1];
      assert ys == init + [last];
      assert xs + ys == (xs + init) + [last];
      ProductConcat(xs, init);
      ProductAppend(xs + init, last);
      ProductAppend(init, last);
      MulAssociative(Product(xs), Product(init), Pow(last.prime, last.exponent));
    }
  }

  /** A product of prime powers is positive. */
  lemma {:induction false} ProductPositive(fs: seq<Factor>)
    requires PrimePowers(fs)
    ensures Product(fs) >= 1
  {
    if |fs| > 0 {
      var init, last := fs[..|fs| - 1], fs[|fs| - 1];
      assert PrimePowers(init) by {
        forall i | 0 <= i < |init| ensures IsPrime(init[i].prime) && init[i].exponent >= 1 {
          assert init[i] == fs[i];
        }
      }
      ProductPositive(init);
      PowPositive(last.prime, last.exponent);
      MulNatLower(Product(init), Pow(last.prime, last.exponent));
      MulNatLower(Pow(last.prime, last.exponent), Product(init));
    }
  }

  /** p^e divides p^f when e <= f. */
  lemma PowDividesPow(p: int, e: nat, f: nat)
    requires e <= f
    ensures Divides(Pow(p, e), Pow(p, f))
  {
    PowAdd(p, e, f - e);
    DividesMultiple(Pow(p, e), Pow(p, f - e));
  }

  /** A prime dividing a power of a prime is that prime. */
  lemma {:induction false} PrimeDividesPrimePower(q: int, p: int, e: nat)
    requires IsPrime(q) && IsPrime(p) && Divides(q, Pow(p, e))
    ensures q == p
  {
    if e == 0 {
      DividesBound(q, 1);
    } else {
      assert Pow(p, e) == p * Pow(p, e - 1);
      EuclidLemma(q, p, Pow(p, e - 1));
      if Divides(q, p) {
        PositiveDivisorsOfPrime(p, q);
      } else {
        PrimeDividesPrimePower(q, p, e - 1);
      }
    }
  }

  /** A prime dividing a product of prime powers is one of the listed primes. */
  lemma {:induction false} PrimeDividesProduct(q: int, fs: seq<Factor>) returns (i: int)
    requires IsPrime(q) && PrimePowers(fs) && Divides(q, Product(fs))
    ensures 0 <= i < |fs| && fs[i].prime == q
    decreases |fs|
  {
    if |fs| == 0 {
      DividesBound(q, 1);
      assert false;
    }
    var init, last := fs[..|fs| - 1], fs[|fs| - 1];
    assert PrimePowers(init) by {
      forall j | 0 <= j < |init| ensures IsPrime(init[j].prime) && init[j].exponent >= 1 {
        assert init[j] == fs[j];
      }
    }
    EuclidLemma(q, Product(init), Pow(last.prime, last.exponent));
    if Divides(q, Product(init)) {
      i := PrimeDividesProduct(q, init);
      assert init[i] == fs[i];
    } else {
      PrimeDividesPrimePower(q, last.prime, last.exponent);
      i := |fs| - 1;
    }
  }

  /** n split as p_i^alpha_i times the product of the other entries. */
  lemma SplitAt(fs: seq<Factor>, i: int)
    requires 0 <= i < |fs|
    ensures Product(fs) == Pow(fs[i].prime, fs[i].exponent) * Product(fs[..i] + fs[i + 1..])
  {
    var front, f, back := fs[..i], fs[i], fs[i + 1..];
    var a, p, b := Product(front), Pow(f.prime, f.exponent), Product(back);
    calc {
      Product(fs);
      { assert fs == (front + [f]) + back; }
      Product((front + [f]) + back);
      { ProductConcat(front + [f], back); }
      Product(front + [f]) * b;
      { ProductAppend(front, f); }
      (a * p) * b;
      { MulAssociative(a, p, b); MulAssociative(p, a, b); }
      p * (a * b);
      { ProductConcat(front, back); }
      p * Product(front + back);
    }
  }

  /** The entries other than entry i are prime powers too. */
  lemma OthersArePrimePowers(fs: seq<Factor>, i: int)
    requires PrimePowers(fs) && 0 <= i < |fs|
    ensures PrimePowers(fs[..i] + fs[i + 1..])
  {
    var others := fs[..i] + fs[i + 1..];
    forall j | 0 <= j < |others|
      ensures IsPrime(others[j].prime) && others[j].exponent >= 1
    {
      if j < i { assert others[j] == fs[j]; } else { assert others[j] == fs[j + 1]; }
    }
  }

  /** In an ascending factorization, p_i divides none of the other entries' product. */
  lemma OthersLackPrime(fs: seq<Factor>, i: int)
    requires PrimePowers(fs) && Ascending(fs) && 0 <= i < |fs|
    ensures !Divides(fs[i].prime, Product(fs[..i] + fs[i + 1..]))
  {
    var others := fs[..i] + fs[i + 1..];
    OthersArePrimePowers(fs, i);
    if Divides(fs[i].prime, Product(others)) {
      var j := PrimeDividesProduct(fs[i].prime, others);
      assert false;
    }
  }

  /** A nonzero factor cancels. */
  lemma CancelLeft(c: int, x: int, y: int)
    requires c != 0 && c * x == c * y
    ensures x == y
  {
    if x != y {
      MulAbsLower(c, x - y);
    }
  }

  /** If p^(e+1) divides pe * rest with pe = p^e != 0, then p divides rest. */
  lemma NextPowerDivides(p: int, e: nat, rest: int)
    requires p > 0 && Divides(Pow(p, e + 1), Pow(p, e) * rest)
    ensures Divides(p, rest)
  {
    var pe := Pow(p, e);
    var k := DividesWitness(Pow(p, e + 1), pe * rest);
    PowAdd(p, e, 1);
    assert Pow(p, 1) == p;
    assert Pow(p, e + 1) == pe * p;
    MulAssociative(pe, p, k);
    PowPositive(p, e);
    CancelLeft(pe, rest, p * k);
    DividesMultiple(p, k);
  }

  /** Each exponent of a factorization is the largest alpha with p^alpha dividing n. */
  lemma ExponentIsMaximal(n: int, fs: seq<Factor>, i: int)
    requires IsFactorization(n, fs) && 0 <= i < |fs|
    ensures Divides(Pow(fs[i].prime, fs[i].exponent), n)
    ensures !Divides(Pow(fs[i].prime, fs[i].exponent + 1), n)
  {
    var p, e := fs[i].prime, fs[i].exponent;
    SplitAt(fs, i);
    var rest := Product(fs[..i] + fs[i + 1..]);
    assert n == Pow(p, e) * rest;
    DividesMultiple(Pow(p, e), rest);
    OthersLackPrime(fs, i);
    if Divides(Pow(p, e + 1), n) {
      NextPowerDivides(p, e, rest);
      assert false;
    }
  }

  /** Every listed prime divides n. */
  lemma ListedPrimeDivides(n: int, fs: seq<Factor>, i: int)
    requires IsFactorization(n, fs) && 0 <= i < |fs|
    ensures Divides(fs[i].prime, n)
  {
    ExponentIsMaximal(n, fs, i);
    PowDividesPow(fs[i].prime, 1, fs[i].exponent);
    assert Pow(fs[i].prime, 1) == fs[i].prime;
    DividesTransitive(fs[i].prime, Pow(fs[i].prime, fs[i].exponent), n);
  }

  /** The primes of a factor list, in its order. */
  function PrimesOf(fs: seq<Factor>): (ps: seq<int>)
    ensures |ps| == |fs| && forall i :: 0 <= i < |fs| ==> ps[i] == fs[i].prime
  {
    if |fs| == 0 then [] else PrimesOf(fs[..|fs| - 1]) + [fs[|fs| - 1].prime]
  }

  /** Two ascending lists holding the same entries are equal: their primes form
      the same strictly ascending list, and an entry can sit only at the place
      of its prime. */
  lemma AscendingSameEntries(xs: seq<Factor>, ys: seq<Factor>)
    requires Ascending(xs) && Ascending(ys)
    requires forall f :: f in xs <==> f in ys
    ensures xs == ys
  {
    var ps, qs := PrimesOf(xs), PrimesOf(ys);
    forall x
      ensures x in ps <==> x in qs
    {
      if x in ps {
        var i :| 0 <= i < |ps| && ps[i] == x;
        assert xs[i] in ys;
        var j :| 0 <= j < |ys| && ys[j] == xs[i];
        assert qs[j] == x;
      }
      if x in qs {
        var j :| 0 <= j < |qs| && qs[j] == x;
        assert ys[j] in xs;
        var i :| 0 <= i < |xs| && xs[i] == ys[j];
        assert ps[i] == x;
      }
    }
    StrictlyAscendingUnique(ps, qs);
    forall i | 0 <= i < |xs|
      ensures xs[i] == ys[i]
    {
      assert xs[i] in ys;
      var j :| 0 <= j < |ys| && ys[j] == xs[i];
      assert ps[i] == qs[i] == qs[j];
    }
  }

  /** Entries of one factorization of n appear in every other factorization of n. */
  lemma EntryInEveryFactorization(n: int, xs: seq<Factor>, ys: seq<Factor>, f: Factor)
    requires IsFactorization(n, xs) && IsFactorization(n, ys) && f in xs
    ensures f in ys
  {
    var i :| 0 <= i < |xs| && xs[i] == f;
    ListedPrimeDivides(n, xs, i);
    var j := PrimeDividesProduct(f.prime, ys);
    ExponentIsMaximal(n, xs, i);
    ExponentIsMaximal(n, ys, j);
    var e, g := f.exponent, ys[j].exponent;
    if e < g {
      PowDividesPow(f.prime, e + 1, g);
      DividesTransitive(Pow(f.prime, e + 1), Pow(f.prime, g), n);
    } else if g < e {
      PowDividesPow(f.prime, g + 1, e);
      DividesTransitive(Pow(f.prime, g + 1), Pow(f.prime, e), n);
    }
    assert ys[j] == f;
  }

  /** Fundamental theorem of arithmetic: the factorization of n is unique. */
  lemma FactorizationUnique(n: int, xs: seq<Factor>, ys: seq<Factor>)
    requires IsFactorization(n, xs) && IsFactorization(n, ys)
    ensures xs == ys
  {
    forall f
      ensures f in xs <==> f in ys
    {
      if f in xs {
        EntryInEveryFactorization(n, xs, ys, f);
      }
      if f in ys {
        EntryInEveryFactorization(n, ys, xs, f);
      }
    }
    AscendingSameEntries(xs, ys);
  }

  /** n is not divisible by the square of any prime. */
  ghost predicate SquareFree(n: int)
  {
    forall p :: IsPrime(p) ==> !Divides(p * p, n)
  }

  /** Korselt's criterion: n is square-free, has at least two distinct prime
      factors, and p - 1 divides n - 1 for every prime factor p. */
  ghost predicate KorseltCriterion(n: int)
  {
    && n > 1
    && SquareFree(n)
    && (exists p, q :: IsPrime(p) && IsPrime(q) && p != q && Divides(p, n) && Divides(q, n))
    && forall p :: IsPrime(p) && Divides(p, n) ==> Divides(p - 1, n - 1)
  }

  /** The criterion read off a factor list: more than one pair, every exponent 1,
      and p - 1 divides n - 1 for every listed prime. */
  predicate KorseltOnFactors(n: int, fs: seq<Factor>)
  {
    && |fs| > 1
    && (forall i :: 0 <= i < |fs| ==> fs[i].exponent == 1)
    && (forall i :: 0 <= i < |fs| ==> Divides(fs[i].prime - 1, n - 1))
  }

  /** A prime whose square divides n has exponent at least 2 in n's factorization. */
  lemma SquareDividesMeansRepeated(n: int, fs: seq<Factor>, p: int) returns (i: int)
    requires IsFactorization(n, fs) && IsPrime(p) && Divides(p * p, n)
    ensures 0 <= i < |fs| && fs[i].prime == p && fs[i].exponent >= 2
  {
    DividesMultiple(p, p);
    DividesTransitive(p, p * p, n);
    i := PrimeDividesProduct(p, fs);
    ExponentIsMaximal(n, fs, i);
    PowTwo(p);
    if fs[i].exponent < 2 {
      assert false;
    }
  }

  /** A repeated prime makes its square divide n. */
  lemma RepeatedMeansSquareDivides(n: int, fs: seq<Factor>, i: int)
    requires IsFactorization(n, fs) && 0 <= i < |fs| && fs[i].exponent >= 2
    ensures Divides(fs[i].prime * fs[i].prime, n)
  {
    var r, e := fs[i].prime, fs[i].exponent;
    ExponentIsMaximal(n, fs, i);
    PowDividesPow(r, 2, e);
    PowTwo(r);
    DividesTransitive(r * r, Pow(r, e), n);
  }

  lemma KorseltToFactors(n: int, fs: seq<Factor>)
    requires IsFactorization(n, fs) && KorseltCriterion(n)
    ensures KorseltOnFactors(n, fs)
  {
    var p, q :| IsPrime(p) && IsPrime(q) && p != q && Divides(p, n) && Divides(q, n);
    var i := PrimeDividesProduct(p, fs);
    var j := PrimeDividesProduct(q, fs);
    forall k | 0 <= k < |fs|
      ensures fs[k].exponent == 1
    {
      if fs[k].exponent != 1 {
        RepeatedMeansSquareDivides(n, fs, k);
      }
    }
    forall k | 0 <= k < |fs|
      ensures Divides(fs[k].prime - 1, n - 1)
    {
      ListedPrimeDivides(n, fs, k);
    }
  }

  lemma FactorsToKorselt(n: int, fs: seq<Factor>)
    requires IsFactorization(n, fs) && KorseltOnFactors(n, fs)
    ensures KorseltCriterion(n)
  {
    ListedPrimeDivides(n, fs, 0);
    ListedPrimeDivides(n, fs, 1);
    assert fs[0].prime != fs[1].prime;
    ProductPositive(fs);
    DividesBound(fs[0].prime, n);
    assert n > 1;
    forall p | IsPrime(p)
      ensures !Divides(p * p, n)
    {
      if Divides(p * p, n) {
        var i := SquareDividesMeansRepeated(n, fs, p);
      }
    }
    forall p | IsPrime(p) && Divides(p, n)
      ensures Divides(p - 1, n - 1)
    {
      var i := PrimeDividesProduct(p, fs);
    }
  }

  /** Korselt's criterion holds of n exactly when it holds of n's factorization. */
  lemma KorseltFromFactorization(n: int, fs: seq<Factor>)
    requires IsFactorization(n, fs)
    ensures KorseltCriterion(n) <==> KorseltOnFactors(n, fs)
  {
    if KorseltCriterion(n) {
      KorseltToFactors(n, fs);
    }
    if KorseltOnFactors(n, fs) {
      FactorsToKorselt(n, fs);
    }
  }
}

=== FILE: fermat.dfy ===
/** Fermat's little theorem, proved through the binomial expansion of (x+1)^p,
    and its consequence for Korselt's criterion: a number meeting the criterion
    has no Fermat witness, which is what makes it a Carmichael number. */
module Fermat {
  import opened Divisibility
  import opened GcdTheory
  import opened Primes
  import opened Powers
  import opened Factorization

  /** Binomial coefficients by Pascal's rule. */
  function Binom(n: nat, k: nat): nat
  {
    if k == 0 then 1
    else if n == 0 then 0
    else Binom(n - 1, k - 1) + Binom(n - 1, k)
  }

  /** The first j terms of the binomial expansion of (x+1)^n:
      the sum of Binom(n, k) * x^k for k < j. */
  function BinomSum(x: int, n: nat, j: nat): int
  {
    if j == 0 then 0 else BinomSum(x, n, j - 1) + Binom(n, j - 1) * Pow(x, j - 1)
  }

  lemma {:induction false} BinomAbove(n: nat, k: nat)
    requires k > n
    ensures Binom(n, k) == 0
  {
    if n > 0 {
      BinomAbove(n - 1, k - 1);
      BinomAbove(n - 1, k);
    }
  }

  lemma {:induction false} BinomDiagonal(n: nat)
    ensures Binom(n, n) == 1
  {
    if n > 0 {
      BinomDiagonal(n - 1);
      BinomAbove(n - 1, n);
    }
  }

  lemma AbsorptionAlgebra(n: int, k: int, a: int, b: int, c: int, d: int)
    requires (k - 1) * a == (n - 1) * c && k * b == (n - 1) * d && a == c + d
    ensures k * (a + b) == n * a
  {
    calc {
      k * (a + b);
      (k - 1) * a + a + k * b;
      (n - 1) * c + a + (n - 1) * d;
      (n - 1) * (c + d) + a;
      n * a;
    }
  }

  /** The absorption identity k * C(n, k) = n * C(n-1, k-1). */
  lemma {:induction false} BinomAbsorption(n: nat, k: nat)
    requires n >= 1 && k >= 1
    ensures k * Binom(n, k) == n * Binom(n - 1, k - 1)
  {
    if n == 1 {
      if k > 1 {
        BinomAbove(0, k - 1);
        BinomAbove(0, k);
      }
    } else if k == 1 {
      BinomAbsorption(n - 1, 1);
    } else {
      BinomAbsorption(n - 1, k);
      BinomAbsorption(n - 1, k - 1);
      AbsorptionAlgebra(n, k, Binom(n - 1, k - 1), Binom(n - 1, k), Binom(n - 2, k - 2), Binom(n - 2, k - 1));
    }
  }

  lemma PascalAlgebra(s: int, t: int, u: int, a: int, b: int, x: int, xj1: int, xj: int)
    requires xj == x * xj1 && s == t + x * u
    ensures s + (a + b) * xj == (t + b * xj) + x * (u + a * xj1)
  {
    calc {
      s + (a + b) * xj;
      t + x * u + a * (x * xj1) + b * xj;
      { assert a * (x * xj1) == x * (a * xj1); }
      (t + b * xj) + x * (u + a * xj1);
    }
  }

  /** Pascal's rule, summed: the partial expansion for n splits into two for n - 1. */
  lemma {:induction false} BinomSumPascal(x: int, n: nat, j: nat)
    requires n >= 1
    ensures BinomSum(x, n, j + 1) == BinomSum(x, n - 1, j + 1) + x * BinomSum(x, n - 1, j)
  {
    if j > 0 {
      BinomSumPascal(x, n, j - 1);
      PascalAlgebra(BinomSum(x, n, j), BinomSum(x, n - 1, j), BinomSum(x, n - 1, j - 1),
        Binom(n - 1, j - 1), Binom(n - 1, j), x, Pow(x, j - 1), Pow(x, j));
    }
  }

  lemma FactorOut(s: int, x: int)
    ensures s + x * s == (x + 1) * s
  {
  }

  /** The binomial theorem for (x+1)^n. */
  lemma {:induction false} BinomialTheorem(x: int, n: nat)
    ensures Pow(x + 1, n) == BinomSum(x, n, n + 1)
  {
    if n > 0 {
      BinomialTheorem(x, n - 1);
      BinomSumPascal(x, n, n);
      BinomAbove(n - 1, n);
      var s := BinomSum(x, n - 1, n);
      assert BinomSum(x, n - 1, n + 1) == s by {
        assert BinomSum(x, n - 1, n + 1) == s + Binom(n - 1, n) * Pow(x, n);
      }
      assert Pow(x + 1, n) == (x + 1) * s;
      FactorOut(s, x);
    }
  }

  /** A prime p divides C(p, k) for 0 < k < p. */
  lemma PrimeDividesBinom(p: int, k: nat)
    requires IsPrime(p) && 0 < k < p
    ensures Divides(p, Binom(p, k))
  {
    BinomAbsorption(p, k);
    DividesMultiple(p, Binom(p - 1, k - 1));
    EuclidLemma(p, k, Binom(p, k));
    if Divides(p, k) {
      DividesBound(p, k);
    }
  }

  /** The middle terms of the expansion of (x+1)^p vanish modulo p. */
  lemma {:induction false} MiddleTermsVanish(x: int, p: int, j: nat)
    requires IsPrime(p) && 1 <= j <= p
    ensures Divides(p, BinomSum(x, p, j) - 1)
  {
    if j == 1 {
      DividesMultiple(p, 0);
    } else {
      MiddleTermsVanish(x, p, j - 1);
      PrimeDividesBinom(p, j - 1);
      var c := DividesWitness(p, Binom(p, j - 1));
      var t := DividesWitness(p, BinomSum(x, p, j - 1) - 1);
      calc {
        BinomSum(x, p, j) - 1;
        (BinomSum(x, p, j - 1) - 1) + Binom(p, j - 1) * Pow(x, j - 1);
        p * t + (p * c) * Pow(x, j - 1);
        { MulAssociative(p, c, Pow(x, j - 1)); }
        p * (t + c * Pow(x, j - 1));
      }
      DividesMultiple(p, t + c * Pow(x, j - 1));
    }
  }

  /** The freshman's dream modulo a prime: (x+1)^p - x^p - 1 is a multiple of p. */
  lemma FreshmansDream(x: int, p: int)
    requires IsPrime(p)
    ensures Divides(p, Pow(x + 1, p) - Pow(x, p) - 1)
  {
    BinomialTheorem(x, p);
    MiddleTermsVanish(x, p, p);
    BinomDiagonal(p);
    assert BinomSum(x, p, p + 1) == BinomSum(x, p, p) + Pow(x, p);
  }

  /** Fermat's little theorem for naturals: p divides a^p - a. */
  lemma {:induction false} FermatNat(a: nat, p: int)
    requires IsPrime(p)
    ensures Divides(p, Pow(a, p) - a)
  {
    if a == 0 {
      PowZeroBase(p);
      DividesMultiple(p, 0);
    } else {
      FermatNat(a - 1, p);
      FreshmansDream(a - 1, p);
      DividesCombination(p, Pow(a, p) - Pow(a - 1, p) - 1, Pow(a - 1, p) - (a - 1), 1, 1);
    }
  }

  lemma {:induction false} PowZeroBase(k: nat)
    requires k > 0
    ensures Pow(0, k) == 0
  {
  }

  /** Fermat's little theorem: p divides a^p - a for every integer a. */
  lemma FermatLittle(a: int, p: int)
    requires IsPrime(p)
    ensures Divides(p, Pow(a, p) - a)
  {
    var r := a % p;
    FermatNat(r, p);
    PowMod(a, p, p);
    DivModUnique(r, p, 0, r);
    CongruentDivides(Pow(r, p), r, p);
    CongruentDivides(Pow(a, p), a, p);
  }

  /** Fermat's little theorem in the form a Fermat witness refutes:
      a coprime to the prime p has a^(p-1) = 1 modulo p. */
  lemma FermatCoprime(a: int, p: int)
    requires IsPrime(p) && Gcd(a, p) == 1
    ensures Pow(a, p - 1) % p == 1
  {
    FermatLittle(a, p);
    var e := Pow(a, p - 1);
    assert Pow(a, p) == a * e;
    assert Pow(a, p) - a == a * (e - 1);
    Gauss(a, p, e - 1);
    var k := DividesWitness(p, e - 1);
    ModAddMultiple(1, p, k);
    DivModUnique(1, p, 0, 1);
  }

  /** a is a Fermat witness that n is composite: a is coprime to n and
      a^(n-1) is not 1 modulo n. */
  predicate IsFermatWitness(a: int, n: int)
    requires n > 1
  {
    Gcd(a, n) == 1 && Pow(a, n - 1) % n != 1
  }

  /** A Fermat witness proves n composite. */
  lemma WitnessMeansComposite(a: int, n: int)
    requires n > 1 && IsFermatWitness(a, n)
    ensures !IsPrime(n)
  {
    if IsPrime(n) {
      FermatCoprime(a, n);
    }
  }

  /** Exponents may be reduced modulo p - 1 when a is coprime to the prime p. */
  lemma FermatReduce(a: int, p: int, q: nat, r: nat)
    requires IsPrime(p) && Gcd(a, p) == 1
    ensures Pow(a, (p - 1) * q + r) % p == Pow(a, r) % p
  {
    var e := Pow(a, p - 1);
    FermatCoprime(a, p);
    PowAdd(a, (p - 1) * q, r);
    PowMul(a, p - 1, q);
    PowMod(e, q, p);
    PowOne(q);
    DivModUnique(1, p, 0, 1);
    var big := Pow(a, (p - 1) * q);
    assert big % p == 1;
    ModMul(big, Pow(a, r), p);
    ModMul(1, Pow(a, r), p);
  }

  /** n is a Carmichael number: composite, yet without any Fermat witness. */
  ghost predicate IsCarmichael(n: int)
  {
    n > 1 && !IsPrime(n) && forall a :: !IsFermatWitness(a, n)
  }

  lemma {:induction false} PowOne(t: nat)
    ensures Pow(1, t) == 1
  {
    if t > 0 {
      PowOne(t - 1);
    }
  }

  lemma {:induction false} PowMul(a: int, m: nat, t: nat)
    ensures Pow(a, m * t) == Pow(Pow(a, m), t)
  {
    if t > 0 {
      PowMul(a, m, t - 1);
      assert m * t == m * (t - 1) + m;
      PowAdd(a, m * (t - 1), m);
      assert Pow(Pow(a, m), t) == Pow(a, m) * Pow(Pow(a, m), t - 1);
    }
  }

  /** Being coprime to n makes a coprime to every prime factor of n. */
  lemma CoprimeToFactor(a: int, n: int, p: int)
    requires Gcd(a, n) == 1 && IsPrime(p) && Divides(p, n)
    ensures Gcd(a, p) == 1
  {
    PrimeDividesOrCoprime(p, a);
    GcdSymmetries(p, a);
    if Divides(p, a) {
      CommonDivisorDividesGcd(p, a, n);
      DividesBound(p, 1);
    }
  }

  /** If p - 1 divides n - 1 and a is coprime to the prime p, a^(n-1) = 1 modulo p. */
  lemma PowerCongruentOne(a: int, p: int, n: int)
    requires IsPrime(p) && Gcd(a, p) == 1 && n >= 1 && Divides(p - 1, n - 1)
    ensures Divides(p, Pow(a, n - 1) - 1)
  {
    var t := DividesWitness(p - 1, n - 1);
    var e := Pow(a, p - 1);
    FermatCoprime(a, p);
    PowMul(a, p - 1, t);
    PowMod(e, t, p);
    PowOne(t);
    DivModUnique(1, p, 0, 1);
    var x := Pow(a, n - 1);
    assert x % p == 1;
    assert x - 1 == p * (x / p);
    DividesMultiple(p, x / p);
  }

  /** Coprime divisors of m multiply to a divisor of m. */
  lemma CoprimeProductDivides(x: int, q: int, m: int)
    requires Gcd(x, q) == 1 && Divides(x, m) && Divides(q, m)
    ensures Divides(x * q, m)
  {
    var k := DividesWitness(x, m);
    Gauss(x, q, k);
    var l := DividesWitness(q, k);
    MulAssociative(x, q, l);
    DividesMultiple(x * q, l);
  }

  /** A product of distinct primes, each dividing m, divides m. */
  lemma {:induction false} DistinctPrimesProductDivides(fs: seq<Factor>, m: int)
    requires PrimePowers(fs) && Ascending(fs)
    requires forall i :: 0 <= i < |fs| ==> fs[i].exponent == 1 && Divides(fs[i].prime, m)
    ensures Divides(Product(fs), m)
    decreases |fs|
  {
    if |fs| == 0 {
      DividesSigns(1, m);
      DivModUnique(Abs(m), 1, Abs(m), 0);
    } else {
      var init, last := fs[..|fs| - 1], fs[|fs| - 1];
      assert PrimePowers(init) && Ascending(init) by {
        forall j | 0 <= j < |init| ensures init[j] == fs[j] { }
      }
      forall j | 0 <= j < |init|
        ensures init[j].exponent == 1 && Divides(init[j].prime, m)
      {
        assert init[j] == fs[j];
      }
      DistinctPrimesProductDivides(init, m);
      PowTwo(last.prime);
      PrimeDividesOrCoprime(last.prime, Product(init));
      if Divides(last.prime, Product(init)) {
        var i := PrimeDividesProduct(last.prime, init);
        assert false;
      }
      GcdSymmetries(last.prime, Product(init));
      CoprimeProductDivides(Product(init), last.prime, m);
    }
  }

  /** Korselt's criterion, read off a factorization, makes n a Carmichael number:
      every a coprime to n has a^(n-1) = 1 modulo each prime factor, hence modulo n. */
  lemma KorseltMeansCarmichael(n: int, fs: seq<Factor>)
    requires IsFactorization(n, fs) && KorseltOnFactors(n, fs)
    ensures IsCarmichael(n)
  {
    ProductPositive(fs);
    ListedPrimeDivides(n, fs, 0);
    ListedPrimeDivides(n, fs, 1);
    DividesBound(fs[1].prime, n);
    assert 2 <= fs[0].prime < n && Divides(fs[0].prime, n);
    forall a
      ensures !IsFermatWitness(a, n)
    {
      if Gcd(a, n) == 1 {
        var x := Pow(a, n - 1);
        forall i | 0 <= i < |fs|
          ensures fs[i].exponent == 1 && Divides(fs[i].prime, x - 1)
        {
          ListedPrimeDivides(n, fs, i);
          CoprimeToFactor(a, n, fs[i].prime);
          PowerCongruentOne(a, fs[i].prime, n);
        }
        DistinctPrimesProductDivides(fs, x - 1);
        var k := DividesWitness(n, x - 1);
        ModAddMultiple(1, n, k);
        DivModUnique(1, n, 0, 1);
      }
    }
  }
}

=== FILE: gcd.dfy ===
/** Greatest common divisors: the defining property, Euclid's recursion as a
    reference function, Bezout coefficients and Gauss's lemma. */
module GcdTheory {
  import opened Divisibility

  /** c divides both a and b. */
  predicate CommonDivisor(c: int, a: int, b: int)
  {
    Divides(c, a) && Divides(c, b)
  }

  /** d is the greatest common divisor of a and b: a nonnegative common divisor
      that every common divisor divides. For (0, 0) this is 0. */
  ghost predicate IsGcd(d: int, a: int, b: int)
  {
    && d >= 0
    && CommonDivisor(d, a, b)
    && forall c :: CommonDivisor(c, a, b) ==> Divides(c, d)
  }

  /** Euclid's recursion on absolute values. */
  function Gcd(a: int, b: int): nat
    decreases Abs(b)
  {
    if b == 0 then Abs(a) else Gcd(b, Abs(a) % Abs(b))
  }

  /** Replacing (x, y) by (y, x - q*y) keeps the common divisors. */
  lemma CommonDivisorsStep(c: int, x: int, y: int, q: int)
    ensures CommonDivisor(c, x, y) <==> CommonDivisor(c, y, x - q * y)
  {
    if Divides(c, y) {
      DividesShift(c, x, y, q);
    }
  }

  /** |a| is the greatest common divisor of a and 0. */
  lemma IsGcdWithZero(a: int)
    ensures IsGcd(Abs(a), a, 0)
  {
    DividesSigns(Abs(a), a);
    DividesMultiple(Abs(a), 1);
    assert Divides(Abs(a), a);
    forall c | CommonDivisor(c, a, 0)
      ensures Divides(c, Abs(a))
    {
      DividesSigns(c, a);
    }
  }

  /** The greatest common divisor is unique. */
  lemma IsGcdUnique(d1: int, d2: int, a: int, b: int)
    requires IsGcd(d1, a, b) && IsGcd(d2, a, b)
    ensures d1 == d2
  {
    assert Divides(d1, d2);
    assert Divides(d2, d1);
    DividesAntisymmetric(d1, d2);
  }

  /** Two pairs with the same common divisors have the same greatest common divisor. */
  lemma IsGcdTransfer(d: int, a: int, b: int, x: int, y: int)
    requires forall c :: CommonDivisor(c, a, b) <==> CommonDivisor(c, x, y)
    requires IsGcd(d, x, y)
    ensures IsGcd(d, a, b)
  {
    assert CommonDivisor(d, x, y);
  }

  /** The common divisors of (a, b) are those of (b, |a| mod |b|). */
  lemma CommonDivisorsEuclidStep(c: int, a: int, b: int)
    requires b != 0
    ensures CommonDivisor(c, a, b) <==> CommonDivisor(c, b, Abs(a) % Abs(b))
  {
    var x, y := Abs(a), Abs(b);
    var q := x / y;
    assert x % y == x - q * y;
    DividesSigns(c, a);
    DividesSigns(c, b);
    CommonDivisorsStep(c, x, y, q);
  }

  /** Euclid's recursion computes the greatest common divisor. */
  lemma {:induction false} GcdIsGcd(a: int, b: int)
    ensures IsGcd(Gcd(a, b), a, b)
    decreases Abs(b)
  {
    if b == 0 {
      IsGcdWithZero(a);
    } else {
      var m := Abs(a) % Abs(b);
      GcdIsGcd(b, m);
      forall c
        ensures CommonDivisor(c, a, b) <==> CommonDivisor(c, b, m)
      {
        CommonDivisorsEuclidStep(c, a, b);
      }
      IsGcdTransfer(Gcd(a, b), a, b, b, m);
    }
  }

  /** d is the greatest common divisor of a and b exactly when it is Gcd(a, b). */
  lemma GcdCharacterization(d: int, a: int, b: int)
    ensures IsGcd(d, a, b) <==> d == Gcd(a, b)
  {
    GcdIsGcd(a, b);
    if IsGcd(d, a, b) {
      IsGcdUnique(d, Gcd(a, b), a, b);
    }
  }

  /** The greatest common divisor ignores the signs of its arguments and
      the order of its arguments, and gcd(0, n) = |n|. */
  lemma GcdSymmetries(a: int, b: int)
    ensures Gcd(-a, b) == Gcd(a, b) && Gcd(a, -b) == Gcd(a, b)
    ensures Gcd(b, a) == Gcd(a, b)
    ensures Gcd(0, b) == Abs(b)
  {
    var g := Gcd(a, b);
    GcdIsGcd(a, b);
    forall c
      ensures CommonDivisor(c, a, b) <==> CommonDivisor(c, -a, b)
      ensures CommonDivisor(c, a, b) <==> CommonDivisor(c, a, -b)
      ensures CommonDivisor(c, a, b) <==> CommonDivisor(c, b, a)
    {
      DividesSigns(c, a);
      DividesSigns(c, b);
    }
    IsGcdTransfer(g, -a, b, a, b);
    IsGcdTransfer(g, a, -b, a, b);
    IsGcdTransfer(g, b, a, a, b);
    GcdCharacterization(g, -a, b);
    GcdCharacterization(g, a, -b);
    GcdCharacterization(g, b, a);
    IsGcdWithZero(b);
    forall c
      ensures CommonDivisor(c, 0, b) <==> CommonDivisor(c, b, 0)
    {
    }
    IsGcdTransfer(Abs(b), 0, b, b, 0);
    GcdCharacterization(Abs(b), 0, b);
  }

  lemma BezoutStepAlgebra(x: int, y: int, q: int, m: int, u: int, v: int)
    requires m == x - y * q
    ensures y * u + m * v == x * v + y * (u - q * v)
  {
    calc {
      y * u + m * v;
      y * u + (x - y * q) * v;
      y * u + x * v - (y * q) * v;
      { assert (y * q) * v == y * (q * v); }
      x * v + y * (u - q * v);
    }
  }

  /** Bezout's identity on naturals, following Euclid's recursion. */
  lemma {:induction false} BezoutNat(x: nat, y: nat) returns (u: int, v: int)
    ensures x * u + y * v == Gcd(x, y)
    decreases y
  {
    if y == 0 {
      u, v := 1, 0;
    } else {
      var q := x / y;
      var m := x % y;
      var u', v' := BezoutNat(y, m);
      BezoutStepAlgebra(x, y, q, m, u', v');
      u, v := v', u' - q * v';
    }
  }

  /** The greatest common divisor depends only on absolute values. */
  lemma GcdAbs(a: int, b: int)
    ensures Gcd(a, b) == Gcd(Abs(a), Abs(b))
  {
    GcdSymmetries(a, b);
    GcdSymmetries(Abs(a), b);
  }

  lemma SignedCoefficient(a: int, u0: int) returns (u: int)
    ensures a * u == Abs(a) * u0
  {
    if a < 0 {
      u := -u0;
      assert a * u == (-a) * u0;
    } else {
      u := u0;
    }
  }

  /** Bezout's identity: the greatest common divisor is an integer combination of a and b. */
  lemma Bezout(a: int, b: int) returns (u: int, v: int)
    ensures a * u + b * v == Gcd(a, b)
  {
    var u0, v0 := BezoutNat(Abs(a), Abs(b));
    GcdAbs(a, b);
    u := SignedCoefficient(a, u0);
    v := SignedCoefficient(b, v0);
  }

  lemma GaussAlgebra(a: int, b: int, m: int, u: int, v: int)
    requires a * u + b * v == 1
    ensures u * (a * m) + (m * v) * b == m
  {
    calc {
      u * (a * m) + (m * v) * b;
      m * (a * u) + m * (b * v);
      m * (a * u + b * v);
    }
  }

  /** Gauss's lemma: if b divides a*m and a, b are coprime, b divides m. */
  lemma Gauss(a: int, b: int, m: int)
    requires Gcd(a, b) == 1
    requires Divides(b, a * m)
    ensures Divides(b, m)
  {
    var u, v := Bezout(a, b);
    GaussAlgebra(a, b, m, u, v);
    DividesMultiple(b, 1);
    assert Divides(b, b);
    DividesCombination(b, a * m, b, u, m * v);
    assert u * (a * m) + (m * v) * b == m;
  }

  /** Every common divisor of a and b divides Gcd(a, b). */
  lemma CommonDivisorDividesGcd(c: int, a: int, b: int)
    requires CommonDivisor(c, a, b)
    ensures Divides(c, Gcd(a, b))
  {
    GcdIsGcd(a, b);
  }

  /** Gcd(a, b) divides both a and b. */
  lemma GcdDivides(a: int, b: int)
    ensures CommonDivisor(Gcd(a, b), a, b)
  {
    GcdIsGcd(a, b);
  }

  /** Any integer combination of a and b is a multiple of their greatest common divisor. */
  lemma GcdDividesCombination(a: int, b: int, x: int, y: int)
    ensures Divides(Gcd(a, b), a * x + b * y)
  {
    GcdIsGcd(a, b);
    DividesCombination(Gcd(a, b), a, b, x, y);
  }

  /** The greatest common divisor is positive unless both arguments are zero. */
  lemma GcdPositive(a: int, b: int)
    requires a != 0 || b != 0
    ensures Gcd(a, b) > 0
  {
    GcdDivides(a, b);
  }

  /** A positive common divisor of a and b that is also a combination of them
      is their greatest common divisor. */
  lemma GcdFromCombination(a: int, b: int, g: int, x: int, y: int)
    requires g > 0 && CommonDivisor(g, a, b) && a * x + b * y == g
    ensures Gcd(a, b) == g
  {
    CommonDivisorDividesGcd(g, a, b);
    GcdDividesCombination(a, b, x, y);
    DividesAntisymmetric(g, Gcd(a, b));
  }
}

=== FILE: powers.dfy ===
/** Natural powers and their behaviour modulo a positive integer. */
module Powers {
  import opened Divisibility

  /** a raised to the natural power b, with a^0 = 1. */
  function Pow(a: int, b: nat): int
  {
    if b == 0 then 1 else a * Pow(a, b - 1)
  }

  lemma {:induction false} PowAdd(a: int, m: nat, n: nat)
    ensures Pow(a, m + n) == Pow(a, m) * Pow(a, n)
  {
    if m > 0 {
      PowAdd(a, m - 1, n);
      assert Pow(a, m + n) == a * Pow(a, m - 1 + n);
    }
  }

  lemma PowTwo(a: int)
    ensures Pow(a, 1) == a && Pow(a, 2) == a * a
  {
    assert Pow(a, 1) == a * Pow(a, 0);
    assert Pow(a, 2) == a * Pow(a, 1);
  }

  lemma {:induction false} PowOfSquare(a: int, k: nat)
    ensures Pow(a * a, k) == Pow(a, 2 * k)
  {
    if k > 0 {
      PowOfSquare(a, k - 1);
      var rest := Pow(a, 2 * (k - 1));
      assert Pow(a * a, k) == (a * a) * rest;
      assert Pow(a, 2 * k) == a * (a * rest) by {
        assert Pow(a, 2 * k) == a * Pow(a, 2 * k - 1);
        assert Pow(a, 2 * k - 1) == a * rest;
      }
    }
  }

  /** The identity behind square-and-multiply: s^k = s^(k mod 2) * (s*s)^(k div 2). */
  lemma PowHalving(s: int, k: nat)
    ensures Pow(s, k) == (if k % 2 == 1 then s else 1) * Pow(s * s, k / 2)
  {
    PowOfSquare(s, k / 2);
    if k % 2 == 1 {
      assert k == 2 * (k / 2) + 1;
      PowAdd(s, 1, 2 * (k / 2));
    } else {
      assert k == 2 * (k / 2);
    }
  }

  lemma PowPositive(a: int, k: nat)
    requires a > 0
    ensures Pow(a, k) > 0
  {
    if k > 0 {
      PowPositive(a, k - 1);
      MulNatLower(Pow(a, k - 1), a);
    }
  }

  lemma ModAddMultiple(z: int, n: int, m: int)
    requires n > 0
    ensures (z + n * m) % n == z % n
  {
    assert z + n * m == n * (z / n + m) + z % n;
    DivModUnique(z + n * m, n, z / n + m, z % n);
  }

  /** Reducing the left factor modulo n leaves the product's residue unchanged. */
  lemma ModMulLeft(x: int, y: int, n: int)
    requires n > 0
    ensures (x * y) % n == ((x % n) * y) % n
  {
    var q, r := x / n, x % n;
    assert x * y == r * y + n * (q * y) by {
      assert x == n * q + r;
    }
    ModAddMultiple(r * y, n, q * y);
  }

  /** Residues multiply: (x*y) mod n depends only on x mod n and y mod n. */
  lemma ModMul(x: int, y: int, n: int)
    requires n > 0
    ensures (x * y) % n == ((x % n) * (y % n)) % n
  {
    ModMulLeft(x, y, n);
    ModMulLeft(y, x % n, n);
    assert (x % n) * y == y * (x % n);
    assert (y % n) * (x % n) == (x % n) * (y % n);
  }

  /** Powers of congruent bases are congruent. */
  lemma {:induction false} PowMod(x: int, k: nat, n: int)
    requires n > 0
    ensures Pow(x % n, k) % n == Pow(x, k) % n
  {
    if k > 0 {
      PowMod(x, k - 1, n);
      var y := x % n;
      var p, q := Pow(y, k - 1), Pow(x, k - 1);
      DivModUnique(y, n, 0, y);
      assert Pow(y, k) == y * p;
      assert Pow(x, k) == x * q;
      ModMul(y, p, n);
      ModMul(x, q, n);
    }
  }

  /** x and y leave the same remainder modulo n exactly when n divides x - y. */
  lemma CongruentDivides(x: int, y: int, n: int)
    requires n > 0
    ensures x % n == y % n <==> Divides(n, x - y)
  {
    if x % n == y % n {
      assert x - y == n * (x / n - y / n);
      DividesMultiple(n, x / n - y / n);
    }
    if Divides(n, x - y) {
      var k := DividesWitness(n, x - y);
      ModAddMultiple(y, n, k);
    }
  }
}

=== FILE: prime_tables.dfy ===
/** Certificates for tables of small primes: a predicate the verifier can
    evaluate on literals, the lemma that turns a certificate into a statement
    about IsPrime, and the lemma that joins the lists of adjacent ranges. */
module PrimeTables {
  import opened Primes

  /** Trial division of x by [2, min(x, bound)) finds no divisor. */
  predicate PassesTrial(x: int, bound: int)
    requires x >= 2
  {
    NoDivisorIn(x, 2, if x < bound then x else bound)
  }

  /** ps[i..] lists, in order, the numbers of [lo, hi) that pass trial
      division below bound, and nothing else. */
  predicate ListsPrimesFrom(ps: seq<int>, i: int, lo: int, hi: int, bound: int)
    requires lo >= 2 && i >= 0
    decreases hi - lo
  {
    if lo >= hi then i == |ps|
    else if PassesTrial(lo, bound) then
      i < |ps| && ps[i] == lo && ListsPrimesFrom(ps, i + 1, lo + 1, hi, bound)
    else ListsPrimesFrom(ps, i, lo + 1, hi, bound)
  }

  /** The certificate means that ps[i..] is the strictly ascending list of the
      primes of [lo, hi). */
  lemma {:induction false} ListsPrimesMeans(ps: seq<int>, i: int, lo: int, hi: int, bound: int)
    requires lo >= 2 && i >= 0 && bound >= 2 && hi <= bound * bound
    requires ListsPrimesFrom(ps, i, lo, hi, bound)
    ensures i <= |ps|
    ensures forall x :: x in ps[i..] <==> lo <= x < hi && IsPrime(x)
    ensures StrictlyAscending(ps[i..])
    decreases hi - lo
  {
    if lo < hi {
      PrimeByBoundedTrial(lo, bound);
      if PassesTrial(lo, bound) {
        ListsPrimesMeans(ps, i + 1, lo + 1, hi, bound);
        assert ps[i..] == [lo] + ps[i + 1..];
        forall j, k | 0 <= j < k < |ps[i..]|
          ensures ps[i..][j] < ps[i..][k]
        {
          assert ps[i..][k] == ps[i + 1..][k - 1];
          if j > 0 {
            assert ps[i..][j] == ps[i + 1..][j - 1];
          } else {
            assert ps[i + 1..][k - 1] in ps[i + 1..];
          }
        }
      } else {
        ListsPrimesMeans(ps, i, lo + 1, hi, bound);
      }
    }
  }

  /** ps is the strictly ascending list of the primes of [lo, hi). */
  ghost predicate PrimeListOf(ps: seq<int>, lo: int, hi: int)
  {
    StrictlyAscending(ps) && forall x :: x in ps <==> lo <= x < hi && IsPrime(x)
  }

  /** A whole certificate means that ps is the list of the primes of [lo, hi). */
  lemma ListsPrimesCertify(ps: seq<int>, lo: int, hi: int, bound: int)
    requires lo >= 2 && bound >= 2 && hi <= bound * bound
    requires ListsPrimesFrom(ps, 0, lo, hi, bound)
    ensures PrimeListOf(ps, lo, hi)
  {
    ListsPrimesMeans(ps, 0, lo, hi, bound);
    assert ps[0..] == ps;
  }

  /** The lists of the primes of two adjacent ranges join into the list of the
      primes of their union. */
  lemma PrimeListJoin(a: seq<int>, b: seq<int>, lo: int, mid: int, hi: int)
    requires lo <= mid <= hi
    requires PrimeListOf(a, lo, mid) && PrimeListOf(b, mid, hi)
    ensures PrimeListOf(a + b, lo, hi)
  {
    forall i, j | 0 <= i < j < |a + b|
      ensures (a + b)[i] < (a + b)[j]
    {
      if j < |a| {
        assert (a + b)[i] == a[i] && (a + b)[j] == a[j];
      } else if i >= |a| {
        assert (a + b)[i] == b[i - |a|] && (a + b)[j] == b[j - |a|];
      } else {
        assert (a + b)[i] == a[i] && a[i] in a;
        assert (a + b)[j] == b[j - |a|] && b[j - |a|] in b;
      }
    }
  }
}

=== FILE: primes.dfy ===
/** Primes and smallest divisors. */
module Primes {
  import opened Divisibility
  import opened GcdTheory

  /** n is prime: at least 2, with no divisor strictly between 1 and n. */
  predicate IsPrime(n: int)
  {
    n >= 2 && forall k :: 2 <= k < n ==> !Divides(k, n)
  }

  /** No integer in [2, d) divides n. */
  predicate NoDivisorBelow(n: int, d: int)
  {
    forall k :: 2 <= k < d ==> !Divides(k, n)
  }

  /** d is the smallest divisor of n other than 1. */
  predicate IsSmallestDivisor(d: int, n: int)
  {
    2 <= d <= n && Divides(d, n) && NoDivisorBelow(n, d)
  }

  /** There is only one smallest divisor. */
  lemma SmallestDivisorUnique(d1: int, d2: int, n: int)
    requires IsSmallestDivisor(d1, n) && IsSmallestDivisor(d2, n)
    ensures d1 == d2
  {
  }

  /** The smallest divisor of n other than 1 is prime. */
  lemma SmallestDivisorIsPrime(d: int, n: int)
    requires IsSmallestDivisor(d, n)
    ensures IsPrime(d)
  {
    forall k | 2 <= k < d
      ensures !Divides(k, d)
    {
      if Divides(k, d) {
        DividesTransitive(k, d, n);
        assert false;
      }
    }
  }

  /** A number at least 2 is prime exactly when it is its own smallest divisor. */
  lemma PrimeIffOwnSmallestDivisor(n: int)
    requires n >= 2
    ensures IsPrime(n) <==> IsSmallestDivisor(n, n)
  {
    DividesMultiple(n, 1);
  }

  /** The only positive divisors of a prime are 1 and itself. */
  lemma PositiveDivisorsOfPrime(p: int, d: int)
    requires IsPrime(p) && d > 0 && Divides(d, p)
    ensures d == 1 || d == p
  {
    DividesBound(d, p);
  }

  /** A prime either divides x or is coprime to it. */
  lemma PrimeDividesOrCoprime(p: int, x: int)
    requires IsPrime(p)
    ensures Divides(p, x) || Gcd(p, x) == 1
  {
    var g := Gcd(p, x);
    GcdIsGcd(p, x);
    assert Divides(g, p) && Divides(g, x);
    if g == 0 {
      assert p == 0;
    } else {
      PositiveDivisorsOfPrime(p, g);
    }
  }

  /** Euclid's lemma: a prime dividing a product divides one of its factors. */
  lemma EuclidLemma(p: int, x: int, y: int)
    requires IsPrime(p) && Divides(p, x * y)
    ensures Divides(p, x) || Divides(p, y)
  {
    PrimeDividesOrCoprime(p, x);
    if !Divides(p, x) {
      GcdSymmetries(p, x);
      Gauss(x, p, y);
    }
  }

  lemma SquareMonotone(x: nat, y: nat)
    requires x <= y
    ensures x * x <= y * y
  {
    MulNatLower(x, 1);
    assert x * x <= x * y by {
      var d: nat := y - x;
      assert x * y == x * x + x * d;
    }
    assert x * y <= y * y by {
      var d: nat := y - x;
      assert y * y == x * y + d * y;
    }
  }

  /** The cofactor of a proper divisor k of n (1 < k < n) is itself a proper divisor. */
  lemma CofactorBounds(n: int, k: int, m: int)
    requires 2 <= k < n && n == k * m
    ensures 2 <= m < n
  {
    if m >= 2 {
      MulNatLower(m, k);
      assert m * k >= 2 * m;
    }
  }

  /** Of two factors of n, one has a square no larger than n. */
  lemma SmallerFactorSquare(k: nat, m: nat)
    requires k <= m
    ensures k * k <= k * m
  {
    var d: nat := m - k;
    assert k * m == k * k + k * d;
  }

  /** A composite number has a divisor whose square does not exceed it. */
  lemma CompositeHasSmallDivisor(n: int) returns (j: int)
    requires n >= 2 && !IsPrime(n)
    ensures 2 <= j < n && j * j <= n && Divides(j, n)
  {
    var k :| 2 <= k < n && Divides(k, n);
    var m := DividesWitness(k, n);
    CofactorBounds(n, k, m);
    if k <= m {
      SmallerFactorSquare(k, m);
      j := k;
    } else {
      SmallerFactorSquare(m, k);
      assert n == m * k;
      DividesMultiple(m, k);
      j := m;
    }
  }

  /** A number with no divisor in [2, d) and d*d > n is prime (when n >= 2). */
  lemma NoSmallDivisorMeansPrime(n: int, d: int)
    requires n >= 2 && d >= 0 && d * d > n
    requires NoDivisorBelow(n, d)
    ensures IsPrime(n)
  {
    if !IsPrime(n) {
      var j := CompositeHasSmallDivisor(n);
      if j >= d {
        SquareMonotone(d, j);
      }
      assert false;
    }
  }

  /** Trial division over [d, e): no k with d <= k < e divides n. Computable, so
      that the primality of a given small number can be evaluated. */
  function NoDivisorIn(n: int, d: int, e: int): bool
    requires d >= 1
    decreases e - d
  {
    d >= e || (n % d != 0 && NoDivisorIn(n, d + 1, e))
  }

  lemma {:induction false} NoDivisorInMeans(n: int, d: int, e: int)
    requires d >= 1
    ensures NoDivisorIn(n, d, e) <==> forall k :: d <= k < e ==> !Divides(k, n)
    decreases e - d
  {
    if d < e {
      NoDivisorInMeans(n, d + 1, e);
      assert Divides(d, n) <==> n % d == 0;
      if NoDivisorIn(n, d, e) {
        forall k | d <= k < e
          ensures !Divides(k, n)
        {
          if k > d {
            assert d + 1 <= k < e;
          }
        }
      }
    }
  }

  /** Primality agrees with trial division by every number in [2, n). */
  lemma PrimeByTrial(n: int)
    ensures IsPrime(n) <==> n >= 2 && NoDivisorIn(n, 2, n)
  {
    NoDivisorInMeans(n, 2, n);
  }

  /** Trial division needs to go no further than a bound whose square exceeds x:
      x >= 2 is prime exactly when no number in [2, min(x, bound)) divides it. */
  lemma PrimeByBoundedTrial(x: int, bound: int)
    requires x >= 2 && bound >= 2 && x < bound * bound
    ensures IsPrime(x) <==> NoDivisorIn(x, 2, if x < bound then x else bound)
  {
    if x < bound {
      PrimeByTrial(x);
    } else {
      NoDivisorInMeans(x, 2, bound);
      if NoDivisorIn(x, 2, bound) {
        NoSmallDivisorMeansPrime(x, bound);
      }
    }
  }

  // ---------------------------------------------------------------------------
  // Strictly ascending lists
  // ---------------------------------------------------------------------------

  /** The elements of xs are strictly ascending. */
  predicate StrictlyAscending(xs: seq<int>)
  {
    forall i, j :: 0 <= i < j < |xs| ==> xs[i] < xs[j]
  }

  /** Two strictly ascending lists with the same elements start alike. */
  lemma StrictlyAscendingSameHead(xs: seq<int>, ys: seq<int>)
    requires StrictlyAscending(xs) && StrictlyAscending(ys) && |xs| > 0
    requires forall x :: x in xs <==> x in ys
    ensures |ys| > 0 && xs[0] == ys[0]
  {
    assert xs[0] in xs;
    assert ys[0] in ys;
    var i :| 0 <= i < |xs| && xs[i] == ys[0];
    var j :| 0 <= j < |ys| && ys[j] == xs[0];
  }

  /** With equal heads, an element of one tail is an element of the other tail. */
  lemma StrictlyAscendingTailEntry(xs: seq<int>, ys: seq<int>, x: int)
    requires StrictlyAscending(xs) && StrictlyAscending(ys)
    requires |xs| > 0 && |ys| > 0 && xs[0] == ys[0]
    requires forall z :: z in xs <==> z in ys
    requires x in xs[1..]
    ensures x in ys[1..]
  {
    var a :| 1 <= a < |xs| && xs[a] == x;
    assert x in ys;
    var b :| 0 <= b < |ys| && ys[b] == x;
    assert b != 0;
    assert ys[1..][b - 1] == x;
  }

  /** A strictly ascending list is determined by its elements, so the list of
      the primes up to n is unique. */
  lemma {:induction false} StrictlyAscendingUnique(xs: seq<int>, ys: seq<int>)
    requires StrictlyAscending(xs) && StrictlyAscending(ys)
    requires forall x :: x in xs <==> x in ys
    ensures xs == ys
    decreases |xs|
  {
    if |xs| == 0 && |ys| > 0 {
      StrictlyAscendingSameHead(ys, xs);
      assert false;
    }
    if |xs| > 0 {
      StrictlyAscendingSameHead(xs, ys);
      forall x
        ensures x in xs[1..] <==> x in ys[1..]
      {
        if x in xs[1..] {
          StrictlyAscendingTailEntry(xs, ys, x);
        }
        if x in ys[1..] {
          StrictlyAscendingTailEntry(ys, xs, x);
        }
      }
      StrictlyAscendingUnique(xs[1..], ys[1..]);
      assert xs == [xs[0]] + xs[1..];
      assert ys == [ys[0]] + ys[1..];
    }
  }
}
